=== FILE: README.md ===
# KtorPokerClient core, modelled in Dafny

This project models the sequential core of a terminal poker client written in
Kotlin:

- `FlowItem<T>` is a value cell that broadcasts every write. Its state is the
  current value plus the log of values handed to the broadcast channel, one
  entry per write. A collector of its flow is described by the value that
  `onStart` emits when it starts and the values handed to `send` after it
  joined. `invoke()` and
  `invoke(v)` are `getValue()` and `setValue(v)` by definition, so the model
  has one function for each pair: `Get` and `Set`. On top of the cell sit its
  compound-update helpers: `now()`, boolean `!`, the list `get`, `set`, `+=`,
  `add`, `contains` and `size`, and the numeric `+= -= *= /= %=` for `Int`,
  `Short`, `Long` and any other `Number` class.
- The card model: `valueTen`, `color` and `symbol`, the `Suit` table, and the
  companion constructors. Their random choices become parameters.
- `PokerUtils`: the case-insensitive `Continue` and `PokerPlay` parsers, the
  `PokerHand` payout table, `getColorLevel`, and rendering a card or a hand
  being edited.
- `AnsiColor`: splitting a packed RGB `Int` into its channels, the escape
  sequence for a colour, and colouring text. The OS check is a boolean
  parameter, derived by `IsCompatible` from the OS name.
- The discard step of the client's turn loop (`Client.kt`, lines 77-90) as
  pure step functions. Each console line marks a slot empty, sets the
  stop/continue choice, or is ignored. The loop stops on "stop" or when every
  slot is empty. The redraw keeps the surviving cards in order and appends the
  new ones.

Kotlin's fixed-width integers are written out explicitly in `KotlinInt`:
two's-complement wrap of `+ - *`, `/` truncating toward zero, `%` taking the
dividend's sign, and `MIN_VALUE / -1 == MIN_VALUE`. The pieces of the Kotlin
string library the client uses are in `KotlinText`: ASCII upper/lower-casing,
`Int.toString`, `toIntOrNull` and `joinToString`.

Every write goes through the property setter, which launches one
fire-and-forget `send`; the collection helpers write the list back through
`setValue` or call `now()`. The model's "version" of a cell is the length of
its send log.

Files: `wrappers.dfy` (Option), `kotlin_int.dfy`, `kotlin_text.dfy`,
`flow_item.dfy`, `card.dfy`, `poker_utils.dfy`, `ansi_color.dfy`,
`client_discard.dfy`.

## Model

| member | source | states |
|---|---|---|
| KotlinInt.Wrap | src/main/kotlin/FlowItem.kt:78-82 | The JVM's overflow result is the unique value in the signed window of the word that is congruent to the exact result modulo 2^bits |
| KotlinInt.ShortOfInt | src/main/kotlin/FlowItem.kt:82 | Computing two Shorts as an Int and then calling `toShort()` equals narrowing the exact result to 16 bits |
| KotlinInt.Quot | src/main/kotlin/FlowItem.kt:108 | Integer `/` truncates toward zero: the magnitude of the quotient is the largest q with q times the divisor's magnitude at most the dividend's, and its sign is the product of the operands' signs |
| KotlinInt.Rem | src/main/kotlin/FlowItem.kt:118 | Integer `%` satisfies `a == (a / b) * b + a % b`, is smaller than the divisor in magnitude and no larger than the dividend, and carries the dividend's sign |
| KotlinInt.QuotRemUnique | src/main/kotlin/FlowItem.kt:108-118 | Truncating division is the only pair (q, r) with `a == q*b + r`, `abs(r) < abs(b)` and r signed like a |
| KotlinInt.Arith | src/main/kotlin/FlowItem.kt:77-125 | An integral compound operation throws exactly for `/` or `%` by zero; otherwise its result lies in the word and is congruent to the exact result |
| KotlinInt.ArithExactWhenInRange | src/main/kotlin/FlowItem.kt:78-82 | A result that fits the word is computed exactly, so only overflow wraps |
| KotlinInt.RemNeverWraps | src/main/kotlin/FlowItem.kt:118 | `%` on two values of a type never overflows |
| KotlinInt.MinDivMinusOne | src/main/kotlin/FlowItem.kt:108 | `MIN_VALUE / -1` wraps back to `MIN_VALUE` |
| KotlinText.Upper | src/main/kotlin/PokerUtils.kt:27 | Upper-casing keeps the length, maps each character through ASCII upper-casing, and leaves no lower-case ASCII letter |
| KotlinText.UpperIdempotent | src/main/kotlin/PokerUtils.kt:39 | Upper-casing twice is upper-casing once |
| KotlinText.UpperEqualIffIgnoreCase | src/main/kotlin/PokerUtils.kt:27 | Comparing upper-cased strings is the same as comparing them ignoring case, character by character |
| KotlinText.Lower | src/main/kotlin/AnsiColor.kt:4 | Lower-casing keeps the length, maps each character through ASCII lower-casing, and leaves no upper-case ASCII letter |
| KotlinText.ContainsText | src/main/kotlin/AnsiColor.kt:4 | `s.contains(t)` holds exactly when `t` occurs in `s` at some position |
| KotlinText.IntToString | src/main/kotlin/Card.kt:15 | `"$value"` starts with '-' exactly for a negative value and otherwise consists of decimal digits |
| KotlinText.NatToString | src/main/kotlin/Card.kt:15 | The digits of a natural number are non-empty and have no leading zero |
| KotlinText.DigitsRoundTrip | src/main/kotlin/Card.kt:15 | Reading back the decimal digits of a number gives the number |
| KotlinText.ToIntOrNull | src/main/kotlin/Client.kt:82 | `toIntOrNull` accepts exactly digits, or '+' or '-' followed by digits: it gives the digits' value (negated after '-') when that fits an Int, and null for out-of-range values, the empty string, a lone sign and anything else |
| KotlinText.ToIntOrNullRoundTrip | src/main/kotlin/Client.kt:82 | Every Int rendered in decimal parses back to itself |
| KotlinText.FieldsOfPiece | src/main/kotlin/AnsiColor.kt:5 | A field without ';' splits off as one piece, so text built by joining such fields with ';' splits back into them |
| KotlinText.IntToStringInjective | src/main/kotlin/AnsiColor.kt:5 | Different Ints have different decimal renderings |
| KotlinText.Join | src/main/kotlin/PokerUtils.kt:21 | `joinToString` of no items is "", and a joined text starts with the first item and ends with the last |
| KotlinText.JoinAppend | src/main/kotlin/PokerUtils.kt:21 | Joining two non-empty runs of items is joining each with one separator between them |
| FlowItem.New | src/main/kotlin/FlowItem.kt:13-20 | A new cell holds the starting value and has sent nothing, because the initializer bypasses the broadcasting setter |
| FlowItem.Get | src/main/kotlin/FlowItem.kt:32-43 | `getValue()` returns the backing field, which in a consistent cell that has sent anything is the last value handed to `send` |
| FlowItem.Set | src/main/kotlin/FlowItem.kt:20-21 | After `setValue(v)`, `getValue()` returns v and exactly one broadcast, carrying v, has been appended to the untouched earlier log |
| FlowItem.Now | src/main/kotlin/FlowItem.kt:53 | `now()` keeps the value and appends exactly one broadcast of it |
| FlowItem.WritesKeepConsistent | src/main/kotlin/FlowItem.kt:20-21 | Consistency is an invariant: a new cell has it, and after any run of writes the last value sent is the current value |
| FlowItem.Subscribe | src/main/kotlin/FlowItem.kt:15 | A collector that has just started is described by exactly the current value that `onStart` emits |
| FlowItem.Delivered | src/main/kotlin/FlowItem.kt:15 | A collector's record is the value `onStart` emitted, then one entry per value handed to `send` after it joined, in the order of the log |
| FlowItem.SetReachesEverySubscriber | src/main/kotlin/FlowItem.kt:14-21 | A write appends exactly its value, as one send, to the record of every collector that has already joined, and nothing else |
| FlowItem.Apply | src/main/kotlin/FlowItem.kt:48-53 | Both `setValue` and `now()` make exactly one broadcast of the new current value |
| FlowItem.Run | src/main/kotlin/FlowItem.kt:21 | A run of n writes appends exactly n broadcasts and leaves the earlier log unchanged |
| FlowItem.ReplayOnJoin | src/main/kotlin/FlowItem.kt:15 | For a collector that joins and is followed by n writes, the record is the value current at joining, then the value handed to `send` by each write in order, ending with the current value |
| FlowItem.Not | src/main/kotlin/FlowItem.kt:75 | `!cell` flips the stored boolean with one broadcast |
| FlowItem.NotTwice | src/main/kotlin/FlowItem.kt:75 | Negating twice restores the value and costs two broadcasts |
| FlowItem.ListGet | src/main/kotlin/FlowItem.kt:71 | `cell[i]` yields element i when i is in range; otherwise the list throws |
| FlowItem.ListSet | src/main/kotlin/FlowItem.kt:72 | `cell[i] = x` throws and leaves value and log unchanged when i is out of range; otherwise only element i changes, the length stays, and exactly one broadcast follows |
| FlowItem.ListAppend | src/main/kotlin/FlowItem.kt:73 | `cell += x` keeps the old elements as a prefix, puts x at the end, and broadcasts once |
| FlowItem.Add | src/main/kotlin/FlowItem.kt:65 | `add` returns the collection's own result (a set refuses an element it already holds). The element is contained afterwards, no other membership changes, the size grows by one exactly when it returns true, and one broadcast follows even when it returns false. A set stays a set, so a second `add` of the same element returns false. On a list, `add` appends: the old list is kept as a prefix and the element goes last |
| FlowItem.ToInt | src/main/kotlin/FlowItem.kt:78 | `toInt()` of an Int, Short or Long is the Int congruent to its value modulo 2^32 (a Long keeps its low 32 bits); another Number class answers for itself |
| FlowItem.ToShort | src/main/kotlin/FlowItem.kt:82 | `toShort()` of an Int, Short or Long is the Short congruent to its value modulo 2^16; another Number class answers for itself |
| FlowItem.ToLong | src/main/kotlin/FlowItem.kt:80 | `toLong()` of an Int, Short or Long is its value unchanged; another Number class answers for itself |
| FlowItem.Compound | src/main/kotlin/FlowItem.kt:77-125 | The compound operators throw exactly for integral `/` or `%` by zero, leaving value and log unchanged. Otherwise they keep the class of an Int, Short or Long value and broadcast once, and the new value is congruent to the exact (truncating) result modulo the class's word size. An unlisted Number class is rewritten to itself |
| FlowItem.ShortResult | src/main/kotlin/FlowItem.kt:82 | Two Shorts combined as Ints and narrowed with `toShort()` give the exact result modulo 2^16 |
| FlowItem.NumResult | src/main/kotlin/FlowItem.kt:77-125 | The branch for an Int, Short or Long value throws exactly for `/` or `%` by a zero operand (after the operand's conversion); otherwise it yields a value of the same class congruent to the exact result modulo that class's word size |
| FlowItem.DivisionExamples | src/main/kotlin/FlowItem.kt:107-118 | `7 / 2 == 3`, `-7 / 2 == -3`, `-7 % 2 == -1` and `7 % -2 == 1`: the quotient truncates and the remainder takes the dividend's sign |
| FlowItem.OverflowExamples | src/main/kotlin/FlowItem.kt:77-115 | `Int.MAX_VALUE + 1` and Short `32767 + 1` wrap to the minimum, and Short `-32768 / -1` stays `-32768` |
| FlowItem.DivisionByZeroExample | src/main/kotlin/FlowItem.kt:107-108 | `5 / 0` throws `ArithmeticException` and leaves the cell and its log unchanged |
| Cards.SuitLabelsDistinct | src/main/kotlin/Card.kt:27-32 | The four suits have pairwise distinct names, symbols and one-character glyphs |
| Cards.ValueTen | src/main/kotlin/Card.kt:3 | `valueTen` is `min(value, 10)`: at most 10, at most the value, and equal to one of them |
| Cards.Color | src/main/kotlin/Card.kt:4-8 | BLACK exactly for spades and clubs, RED exactly for hearts and diamonds |
| Cards.ValueSymbol | src/main/kotlin/Card.kt:9-16 | Every value has a non-empty symbol |
| Cards.Symbol | src/main/kotlin/Card.kt:9-16 | A card's symbol fails to parse as an Int exactly for an ace or a court card; otherwise it parses back to the card's value |
| Cards.SymbolMeaning | src/main/kotlin/Card.kt:9-16 | "A", "J", "Q" and "K" each stand for exactly 1, 11, 12 and 13; any other value's symbol is its decimal rendering `IntToString` (sign, then digits with no leading zero) and reads back as the value |
| Cards.SymbolInjective | src/main/kotlin/Card.kt:9-16 | Different values always have different symbols |
| Cards.RandomCard | src/main/kotlin/Card.kt:19 | `RandomCard` has the drawn suit and a value in 1..13 |
| Cards.OfSuit | src/main/kotlin/Card.kt:20 | `Card[suit]` has that suit and a value in 1..13 |
| Cards.OfValue | src/main/kotlin/Card.kt:22 | `Card[n]` has value n |
| Cards.OfSuits | src/main/kotlin/Card.kt:21 | `Card[s1..sk]` is k cards whose i-th suit is si and whose values lie in 1..13 |
| Cards.OfValues | src/main/kotlin/Card.kt:23 | `Card[n1..nk]` is k cards whose i-th value is ni |
| AnsiColor.IsCompatibleExamples | src/main/kotlin/AnsiColor.kt:4 | Escapes are off for "Windows 10" and "WINDOWS" and on for "Linux" and "Mac OS X" |
| AnsiColor.IsCompatible | src/main/kotlin/AnsiColor.kt:4 | Escapes are on exactly when "win" occurs nowhere in the lower-cased OS name |
| AnsiColor.WithoutLetterW | src/main/kotlin/AnsiColor.kt:4 | An OS name with no 'w' or 'W' keeps escapes on |
| AnsiColor.GetColor | src/main/kotlin/AnsiColor.kt:5 | The body starts with `[38;2;`, and the rest splits at ';' into exactly the decimal renderings of r, g and b |
| AnsiColor.EscapeDecodes | src/main/kotlin/AnsiColor.kt:5-6 | Reading the escape sequence back (ESC, `[38;2;`, three Int fields, `m`) gives exactly (r, g, b) |
| AnsiColor.RegularColor | src/main/kotlin/AnsiColor.kt:5-6 | With escapes on, the sequence reads back as exactly (r, g, b); with escapes off it is empty |
| AnsiColor.ValueOf | src/main/kotlin/AnsiColor.kt:10-15 | Each channel is a byte, and packed back together the channels are the low 24 bits of the colour |
| AnsiColor.ValueOfRoundTrip | src/main/kotlin/AnsiColor.kt:10-15 | For a 24-bit colour, `r*65536 + g*256 + b` gives the colour back |
| AnsiColor.RegularColorOf | src/main/kotlin/AnsiColor.kt:7 | With escapes on, the sequence for a packed colour reads back as that colour's three channels; with escapes off it is empty |
| AnsiColor.ColorText | src/main/kotlin/AnsiColor.kt:8 | Coloured text ends with the text and RESET; before them is a sequence that reads back as the colour's channels with escapes on, and nothing with escapes off |
| AnsiColor.ColorTextRgb | src/main/kotlin/AnsiColor.kt:9 | Coloured text ends with the text and RESET; before them is a sequence that reads back as (r, g, b) with escapes on, and nothing with escapes off |
| AnsiColor.ColorTextChannels | src/main/kotlin/AnsiColor.kt:7-9 | Colouring with a packed colour is colouring with its three channels |
| AnsiColor.RegularColorInjective | src/main/kotlin/AnsiColor.kt:5-6 | With escapes on, two (r, g, b) triples give the same escape sequence exactly when they are equal |
| AnsiColor.ColorTextInjective | src/main/kotlin/AnsiColor.kt:7-8 | With escapes on, two 24-bit colours colour the same text identically exactly when they are equal |
| PokerUtils.ParseContinue | src/main/kotlin/PokerUtils.kt:27-31 | YES exactly for "Y" or "YES" ignoring case, NO exactly for "N" or "NO" ignoring case, null otherwise |
| PokerUtils.ParsePokerPlay | src/main/kotlin/PokerUtils.kt:39-43 | STOP exactly for "STOP" or "S" ignoring case, CONTINUE exactly for "CONTINUE" or "C" ignoring case, null otherwise |
| PokerUtils.ParsersIgnoreCase | src/main/kotlin/PokerUtils.kt:27-43 | Both parsers give the same answer for a string and its upper-cased form |
| PokerUtils.CommandsAreNotNumbers | src/main/kotlin/Client.kt:82 | A text that `PokerPlay` recognises is never an Int, so it can never also empty a slot |
| PokerUtils.PayoutTable | src/main/kotlin/PokerUtils.kt:57-68 | An earlier-declared hand pays strictly more than a later one, and back; every payout is at least HIGH_CARD's, which is 0 |
| PokerUtils.ColorLevel | src/main/kotlin/PokerUtils.kt:4-16 | `getColorLevel` gives white exactly for a high card or no hand |
| PokerUtils.ColorLevelDistinguishesRanks | src/main/kotlin/PokerUtils.kt:4-16 | `getColorLevel(null)` is HIGH_CARD's colour, and distinct ranks get distinct colours |
| PokerUtils.CardSymbol | src/main/kotlin/PokerUtils.kt:20 | A card renders as its symbol followed by the suit's one-character glyph |
| PokerUtils.CardSymbolInjective | src/main/kotlin/PokerUtils.kt:20 | Different cards render differently |
| PokerUtils.SlotSymbol | src/main/kotlin/PokerUtils.kt:21 | An empty slot renders as "[]"; a card renders as its symbol painted cyan, which reads back as (0, 255, 255) with escapes on |
| PokerUtils.HandSymbol | src/main/kotlin/PokerUtils.kt:21 | An empty hand renders as the empty string, and a one-slot hand as that slot alone |
| PokerUtils.HandSymbolSplits | src/main/kotlin/PokerUtils.kt:21 | A hand renders slot by slot joined by ", ": one slot renders alone, and two parts render as the parts with ", " between them |
| PokerUtils.CyanChannels | src/main/kotlin/PokerUtils.kt:21 | The colour used for cards has channels (0, 255, 255) |
| Client.Start | src/main/kotlin/Client.kt:77-78 | The loop starts with CONTINUE and every slot holding its dealt card |
| Client.Done | src/main/kotlin/Client.kt:84 | The loop stops exactly when the choice is STOP or the number of empty slots is the whole hand |
| Client.Step | src/main/kotlin/Client.kt:82 | A PokerPlay word only sets the choice. Otherwise an Int i in 1..5 empties slot i-1 and nothing else, or throws when the hand has no such slot. Any other number or text leaves the state unchanged |
| Client.StepKeepsDiscards | src/main/kotlin/Client.kt:78-84 | A step keeps the hand's length and never puts a card back into a slot |
| Client.Advance | src/main/kotlin/Client.kt:80-84 | One loop iteration extends the replay by one step; a surviving step keeps the discards, and a crash needs a hand shorter than five |
| Client.SelectDiscards | src/main/kotlin/Client.kt:80-84 | The loop reads at least one line and stops exactly at the first line after which the choice is STOP or every slot is empty. It crashes only on a hand shorter than five. Its state equals the step-by-step replay of the lines read, and the slots stay the dealt cards or empty |
| Client.Requested | src/main/kotlin/Client.kt:87 | The number of cards asked for is the size of the set of empty slot positions: zero exactly when none is empty, all exactly when all are |
| Client.Survivors | src/main/kotlin/Client.kt:88 | Removing the empty slots leaves as many cards as there were filled slots |
| Client.Redraw | src/main/kotlin/Client.kt:86-90 | The new hand is the surviving cards in order followed by the drawn cards, and it has the old length when as many cards come back as were asked for |
| Client.SurvivorsAreKeptInOrder | src/main/kotlin/Client.kt:88-90 | The survivors are exactly the dealt cards whose slots were not emptied, in dealt order |

## Left out

- `FlowItem`'s `capacity` argument (src/main/kotlin/FlowItem.kt:13-14), and how the coroutines library treats it: `BroadcastChannel(capacity)` rejects some values with `IllegalArgumentException` and picks a conflated or buffered channel for others. `New` takes no capacity.
- What a collector actually receives. `onStart { emit(flowItem) }` reads the current value before `asFlow()` subscribes (src/main/kotlin/FlowItem.kt:15), so a send made in between reaches neither the replayed value nor the subscription. Each send is launched as its own coroutine (src/main/kotlin/FlowItem.kt:55), so a send launched before a collector joined can still arrive after its replayed value, and sends can overtake each other. The model describes the values handed to `send` after a collector joined, not what its flow emits.
- The broadcast channel itself. `BroadcastChannel(capacity)`, `GlobalScope.launch { send(v) }`, `asFlow`, `collect` and `flowQuery` are concurrency (src/main/kotlin/FlowItem.kt:14, 26, 55-56). Each send is its own coroutine, so the code promises no delivery order between sends, no back-pressure and no cancellation. The model keeps the log of values handed to `send` and the replay-on-start rule. Buffer capacity, dropped or suspended sends and unsubscription are not modelled.
- Aliasing of mutable values. The source broadcasts the same mutable list object on every write. A collector that has not yet consumed an earlier send would see later in-place changes through it. The model logs immutable snapshots.
- The `Float` and `Double` branches of the compound operators: floating-point arithmetic.
- The `Byte` branch of the compound operators (src/main/kotlin/FlowItem.kt:83). Its result is an `Int`. On a `FlowItem<Byte>` the cast back to `T` fails. On a cell typed more loosely, such as `FlowItem<Number>`, the cast succeeds and the cell silently holds and broadcasts an `Int`. The model has no Byte values, so `FlowItem.Compound`'s "keeps the value's class" does not cover them.
- An unlisted `Number` class as an operand: `FlowItem.Number.OtherNum` carries whatever that class's `toInt()`, `toShort()` and `toLong()` return. The model does not derive these.
- `iterator`, `next` and `hasNext` on a cell, `asFlowItem`, `toString` and `collect` (src/main/kotlin/FlowItem.kt:26, 58-69). These are delegation with no state of their own. `Contains` and `Size` are modelled but carry no contract beyond their definition.
- `PokerHand.printHand` (src/main/kotlin/PokerUtils.kt:18): display text built from `List.toString` and an AWT colour.
- The concrete AWT colours of `getColorLevel` and their `.rgb` values. They are abstract, distinct constants (`PokerUtils.LevelColor`). Only `Color.CYAN.rgb`, used when rendering a hand, is given as its value.
- `Type`, `CardType`, `getAnyType` and `toFrameJson` (src/main/kotlin/PokerUtils.kt:47-55), and all of `Utils.kt`: JSON through Gson, a Ktor frame, and random colours.
- Everything in `Client.kt` outside lines 77-90: the WebSocket session, `send`/`getMessage`, `animateString`, `input`/`printr`, console echo and the outer game loop. Console lines are the `inputs` parameter; the server's reply is the `drawn` parameter.
- `System.getProperty("os.name")` returning null. Initialising `AnsiColor` then fails on the null name. `IsCompatible` takes a non-null name.
- Locale-dependent case mapping: `toUpperCase`/`toLowerCase` are modelled for ASCII letters only. `toIntOrNull` is modelled for ASCII digits only, although Kotlin also accepts other Unicode decimal digits.
- Randomness in the `Card` companion. The random source is a parameter: a function from the position of the card being built to the drawn value or suit.

=== FILE: ansi_color.dfy ===
/** `AnsiColor`: wraps text in a 24-bit ANSI foreground-colour escape
    sequence followed by a reset. Whether the terminal understands escapes
    is decided once, from the operating-system name; here it is the
    `compatible` parameter, and `IsCompatible` says how it is derived. */
module AnsiColor {

  import opened Wrappers
  import opened KotlinInt
  import opened KotlinText

  /** `prefix`: the escape character, U+001B. */
  const Prefix: string := "\U{1B}"

  /** `RESET`: escape, then `[0m`. */
  const Reset: string := Prefix + "[0m"

  /** `isCompatible`: escapes are used unless the lower-cased OS name
      contains "win" anywhere. */
  function IsCompatible(osName: string): (ok: bool)
    ensures ok <==> forall i: nat :: !OccursAt(Lower(osName), "win", i)
  {
    !ContainsText(Lower(osName), "win")
  }

  /** An OS name with no 'w' or 'W' keeps escapes on. */
  lemma WithoutLetterW(osName: string)
    requires forall i :: 0 <= i < |osName| ==> LowerChar(osName[i]) != 'w'
    ensures IsCompatible(osName)
  {
    var low := Lower(osName);
    forall i: nat
      ensures !OccursAt(low, "win", i)
    {
      if i + 3 <= |low| {
        assert low[i..i + 3][0] == low[i] == LowerChar(osName[i]);
      }
    }
  }

  /** Windows in any spelling turns escapes off; Linux and macOS keep them. */
  lemma IsCompatibleExamples()
    ensures !IsCompatible("Windows 10") && !IsCompatible("WINDOWS")
    ensures IsCompatible("Linux") && IsCompatible("Mac OS X")
  {
    assert OccursAt(Lower("Windows 10"), "win", 0);
    assert OccursAt(Lower("WINDOWS"), "win", 0);
    WithoutLetterW("Linux");
    WithoutLetterW("Mac OS X");
  }

  /** The fixed start of every colour body. */
  const Head: string := "[38;2;"

  /** `getColor(r, g, b)`: the body of a "set foreground to RGB" sequence,
      `[38;2;` followed by the three decimal fields separated by ';'. */
  function GetColor(r: Int32, g: Int32, b: Int32): (s: string)
    ensures |s| >= |Head| && s[..|Head|] == Head
    ensures Fields(s[|Head|..]) == [IntToString(r), IntToString(g), IntToString(b)]
  {
    var ra, ga, ba := IntToString(r), IntToString(g), IntToString(b);
    NoSemicolonInNumber(r);
    NoSemicolonInNumber(g);
    NoSemicolonInNumber(b);
    ColorBodyFields(ra, ga, ba);
    Head + ra + ";" + ga + ";" + ba
  }

  /** Three fields without ';' joined by ';' after the head split back into
      those fields. */
  lemma ColorBodyFields(ra: string, ga: string, ba: string)
    requires forall i :: 0 <= i < |ra| ==> ra[i] != ';'
    requires forall i :: 0 <= i < |ga| ==> ga[i] != ';'
    requires forall i :: 0 <= i < |ba| ==> ba[i] != ';'
    ensures var s := Head + ra + ";" + ga + ";" + ba;
      |s| >= |Head| && s[..|Head|] == Head && Fields(s[|Head|..]) == [ra, ga, ba]
  {
    var s := Head + ra + ";" + ga + ";" + ba;
    var body := ra + ";" + (ga + ";" + ba);
    assert s == Head + body;
    assert s[..|Head|] == Head && s[|Head|..] == body;
    FieldsOfPiece(ra, ga + ";" + ba);
    FieldsOfPiece(ga, ba);
    FieldsOfPiece(ba, "");
  }

  /** The red, green and blue channels of a packed colour. */
  datatype Rgb = Rgb(r: Int32, g: Int32, b: Int32)

  /** `Int.valueOf()`: `(c shr 16) and 0xff`, `(c shr 8) and 0xff`,
      `c and 0xff`. On a two's-complement `Int`, `shr k` is division by 2^k
      rounded down and `and 0xff` the non-negative remainder modulo 256,
      which are Dafny's `/` and `%` for a positive divisor. Each channel is a
      byte, and together they are the low 24 bits of `c`: the alpha byte of
      an AWT `rgb` value is dropped. */
  function ValueOf(c: Int32): (t: Rgb)
    ensures 0 <= t.r < 256 && 0 <= t.g < 256 && 0 <= t.b < 256
    ensures (t.r * 0x1_0000 + t.g * 0x100 + t.b - c) % 0x100_0000 == 0
  {
    ChannelSplit(c);
    Rgb((c / 0x1_0000) % 0x100, (c / 0x100) % 0x100, c % 0x100)
  }

  /** Shifting by 16 is shifting by 8 twice, so the three bytes taken from
      successive shifts reassemble the low 24 bits. */
  lemma ChannelSplit(c: int)
    ensures ((c / 0x1_0000) % 0x100 * 0x1_0000 + (c / 0x100) % 0x100 * 0x100 + c % 0x100 - c)
      % 0x100_0000 == 0
  {
    var q1, b := c / 0x100, c % 0x100;
    assert c == q1 * 0x100 + b;
    var q2, g := q1 / 0x100, q1 % 0x100;
    assert q1 == q2 * 0x100 + g;
    assert c == q2 * 0x1_0000 + (g * 0x100 + b);
    assert q2 == c / 0x1_0000;
    var q3, r := q2 / 0x100, q2 % 0x100;
    assert q2 == q3 * 0x100 + r;
    assert r * 0x1_0000 + g * 0x100 + b - c == -q3 * 0x100_0000;
  }

  /** Packing the three channels of a 24-bit colour gives it back, and every
      triple of bytes is the channel split of exactly one 24-bit colour. */
  lemma ValueOfRoundTrip(c: Int32)
    requires 0 <= c < 0x100_0000
    ensures var t := ValueOf(c); t.r * 0x1_0000 + t.g * 0x100 + t.b == c
  {
    var t := ValueOf(c);
    var p := t.r * 0x1_0000 + t.g * 0x100 + t.b;
    assert 0 <= p < 0x100_0000;
  }

  /** Reads a colour sequence back: ESC, `[38;2;`, three ';'-separated
      fields that parse as `Int`s, and a final `m`; `None` for anything
      else. */
  function ParseColor(e: string): Option<Rgb> {
    var n := |Prefix + Head|;
    if |e| < n + 1 || e[..n] != Prefix + Head || e[|e| - 1] != 'm' then None
    else
      var fs := Fields(e[n..|e| - 1]);
      if |fs| != 3 then None
      else
        match (ToIntOrNull(fs[0]), ToIntOrNull(fs[1]), ToIntOrNull(fs[2]))
        case (Some(r), Some(g), Some(b)) => Some(Rgb(r, g, b))
        case _ => None
  }

  /** The escape sequence for (r, g, b) reads back as (r, g, b). */
  lemma EscapeDecodes(r: Int32, g: Int32, b: Int32)
    ensures ParseColor(Prefix + GetColor(r, g, b) + "m") == Some(Rgb(r, g, b))
  {
    var c := GetColor(r, g, b);
    var e := Prefix + c + "m";
    var n := |Prefix + Head|;
    assert e[..n] == Prefix + c[..|Head|];
    assert e[n..|e| - 1] == c[|Head|..];
    ToIntOrNullRoundTrip(r);
    ToIntOrNullRoundTrip(g);
    ToIntOrNullRoundTrip(b);
  }

  /** `regularColor(r, g, b)`: on a terminal with escapes, a sequence that
      reads back as exactly (r, g, b); otherwise nothing. */
  function RegularColor(compatible: bool, r: Int32, g: Int32, b: Int32): (s: string)
    ensures !compatible ==> s == ""
    ensures compatible ==> ParseColor(s) == Some(Rgb(r, g, b))
  {
    if compatible then
      EscapeDecodes(r, g, b);
      Prefix + GetColor(r, g, b) + "m"
    else ""
  }

  /** `regularColor(color)`: the escape sequence for a packed colour, which
      reads back as the colour's channels. */
  function RegularColorOf(compatible: bool, c: Int32): (s: string)
    ensures !compatible ==> s == ""
    ensures compatible ==> ParseColor(s) == Some(ValueOf(c))
  {
    var t := ValueOf(c);
    RegularColor(compatible, t.r, t.g, t.b)
  }

  /** `t` is `s` painted with `rgb`: it ends with `s` and RESET, and what
      comes before is a sequence reading back as `rgb` when escapes are on
      and nothing when they are off. */
  predicate Painted(t: string, s: string, compatible: bool, rgb: Rgb) {
    var k := |s + Reset|;
    && |t| >= k
    && t[|t| - k..] == s + Reset
    && (compatible ==> ParseColor(t[..|t| - k]) == Some(rgb))
    && (!compatible ==> |t| == k)
  }

  /** An escape sequence, then the text, then RESET, paints the text with
      the colour the sequence reads back as. */
  lemma PaintedBy(e: string, s: string, compatible: bool, rgb: Rgb)
    requires compatible ==> ParseColor(e) == Some(rgb)
    requires !compatible ==> e == ""
    ensures Painted(e + s + Reset, s, compatible, rgb)
  {
    var t := e + s + Reset;
    assert t[..|e|] == e;
    assert t[|e|..] == s + Reset;
  }

  /** `colorText(s, color)`, also `s.color(color)`. */
  function ColorText(compatible: bool, s: string, c: Int32): (t: string)
    ensures Painted(t, s, compatible, ValueOf(c))
  {
    PaintedBy(RegularColorOf(compatible, c), s, compatible, ValueOf(c));
    RegularColorOf(compatible, c) + s + Reset
  }

  /** `colorText(s, r, g, b)`, also `s.color(r, g, b)`. */
  function ColorTextRgb(compatible: bool, s: string, r: Int32, g: Int32, b: Int32): (t: string)
    ensures Painted(t, s, compatible, Rgb(r, g, b))
  {
    PaintedBy(RegularColor(compatible, r, g, b), s, compatible, Rgb(r, g, b));
    RegularColor(compatible, r, g, b) + s + Reset
  }

  /** Colouring with a packed colour is colouring with its three channels. */
  lemma ColorTextChannels(compatible: bool, s: string, c: Int32)
    ensures var t := ValueOf(c); ColorText(compatible, s, c) == ColorTextRgb(compatible, s, t.r, t.g, t.b)
  {
  }

  /** On a terminal with escapes, the sequence names its colour: two
      triples get the same escape sequence exactly when they are equal. */
  lemma RegularColorInjective(r: Int32, g: Int32, b: Int32, r': Int32, g': Int32, b': Int32)
    ensures RegularColor(true, r, g, b) == RegularColor(true, r', g', b') <==>
      r == r' && g == g' && b == b'
  {
  }

  /** Hence colouring the same text with two 24-bit colours gives the same
      string exactly when the colours are equal. */
  lemma ColorTextInjective(s: string, c: Int32, c': Int32)
    requires 0 <= c < 0x100_0000 && 0 <= c' < 0x100_0000
    ensures ColorText(true, s, c) == ColorText(true, s, c') <==> c == c'
  {
    if ColorText(true, s, c) == ColorText(true, s, c') {
      assert ValueOf(c) == ValueOf(c');
      ValueOfRoundTrip(c);
      ValueOfRoundTrip(c');
    }
  }
}

=== FILE: card.dfy ===
/** The card model of `Card.kt`: a card is a value and a suit; its ten-capped
    value, colour and face symbol are total functions of it, and the
    companion constructors build cards with one part chosen at random. The
    random choice is a parameter here: a function from the position of the
    card being built to what the random source returned for it. */
module Cards {

  import opened Wrappers
  import opened KotlinInt
  import opened KotlinText

  datatype CardColor = Black | Red

  /** The four suits in declaration order (`Suit.values()`), each with its
      printable name, one-letter symbol and Unicode glyph. */
  datatype Suit = Spades | Clubs | Diamonds | Hearts {

    function PrintableName(): string {
      match this
      case Spades => "Spades"
      case Clubs => "Clubs"
      case Diamonds => "Diamonds"
      case Hearts => "Hearts"
    }

    function Symbol(): string {
      match this
      case Spades => "S"
      case Clubs => "C"
      case Diamonds => "D"
      case Hearts => "H"
    }

    function UnicodeSymbol(): string {
      match this
      case Spades => "♠"
      case Clubs => "♣"
      case Diamonds => "♦"
      case Hearts => "♥"
    }
  }

  /** No two suits share a name, a symbol or a glyph, and every glyph is a
      single character. */
  lemma SuitLabelsDistinct(s: Suit, t: Suit)
    ensures |s.UnicodeSymbol()| == 1
    ensures s != t ==> s.Symbol() != t.Symbol()
    ensures s != t ==> s.UnicodeSymbol() != t.UnicodeSymbol()
    ensures s != t ==> s.PrintableName() != t.PrintableName()
  {
  }

  /** A card. The value is a Kotlin `Int`; nothing in the class restricts it
      to 1..13. */
  datatype Card = Card(value: Int32, suit: Suit)

  /** `valueTen`: the value with every court card counted as ten. */
  function ValueTen(c: Card): (r: int)
    ensures r <= 10 && r <= c.value
    ensures r == c.value || r == 10
  {
    if c.value > 10 then 10 else c.value
  }

  /** `color`: black for spades and clubs, red for hearts and diamonds. */
  function Color(c: Card): (r: CardColor)
    ensures r == Black <==> c.suit == Spades || c.suit == Clubs
    ensures r == Red <==> c.suit == Hearts || c.suit == Diamonds
  {
    match c.suit
    case Spades => Black
    case Clubs => Black
    case Hearts => Red
    case Diamonds => Red
  }

  /** The face symbol of a value: a letter for ace and court cards, the
      decimal rendering of the value otherwise. */
  function ValueSymbol(v: Int32): (s: string)
    ensures |s| >= 1
  {
    if v == 13 then "K"
    else if v == 12 then "Q"
    else if v == 11 then "J"
    else if v == 1 then "A"
    else IntToString(v)
  }

  /** `symbol`: a letter for an ace or a court card, and otherwise text that
      reads back as the card's value. */
  function Symbol(c: Card): (s: string)
    ensures c.value in {1, 11, 12, 13} <==> ToIntOrNull(s).None?
    ensures ToIntOrNull(s).Some? ==> ToIntOrNull(s).value == c.value
  {
    SymbolMeaning(c.value);
    ValueSymbol(c.value)
  }

  /** A letter symbol names exactly one value; any other symbol is the
      value written in decimal and reads back as that value. */
  lemma SymbolMeaning(v: Int32)
    ensures ValueSymbol(v) == "A" <==> v == 1
    ensures ValueSymbol(v) == "J" <==> v == 11
    ensures ValueSymbol(v) == "Q" <==> v == 12
    ensures ValueSymbol(v) == "K" <==> v == 13
    ensures v !in {1, 11, 12, 13} ==> ValueSymbol(v) == IntToString(v)
    ensures v !in {1, 11, 12, 13} ==> ToIntOrNull(ValueSymbol(v)) == Some(v)
  {
    if v !in {1, 11, 12, 13} {
      ToIntOrNullRoundTrip(v);
      var s := IntToString(v);
      assert s[0] == '-' || IsDigit(s[0]);
    }
  }

  /** Different values always get different symbols. */
  lemma SymbolInjective(v: Int32, w: Int32)
    requires ValueSymbol(v) == ValueSymbol(w)
    ensures v == w
  {
    SymbolMeaning(v);
    SymbolMeaning(w);
  }

  /** A value drawn by `(1..13).random()`. */
  type Rank = x: int | 1 <= x <= 13 witness 1

  /** `Card.RandomCard`: a random value with a random suit. */
  function RandomCard(rank: Rank, suit: Suit): (c: Card)
    ensures 1 <= c.value <= 13 && c.value == rank && c.suit == suit
  {
    Card(rank, suit)
  }

  /** `Card[suit]`: a card of the given suit with a random value. */
  function OfSuit(suit: Suit, rank: Rank): (c: Card)
    ensures c.suit == suit && 1 <= c.value <= 13
  {
    Card(rank, suit)
  }

  /** `Card[num]`: a card of the given value with a random suit. */
  function OfValue(num: Int32, suit: Suit): (c: Card)
    ensures c.value == num
  {
    Card(num, suit)
  }

  /** `Card[s1, ..., sk]`: one card per suit, in order, each with the value
      the random source gave for its position. */
  method OfSuits(suits: seq<Suit>, rankAt: nat -> Rank) returns (cards: seq<Card>)
    ensures |cards| == |suits|
    ensures forall i :: 0 <= i < |suits| ==> cards[i].suit == suits[i]
    ensures forall i :: 0 <= i < |suits| ==> 1 <= cards[i].value <= 13
    ensures forall i :: 0 <= i < |suits| ==> cards[i].value == rankAt(i)
  {
    cards := [];
    var i := 0;
    while i < |suits|
      invariant 0 <= i <= |suits|
      invariant |cards| == i
      invariant forall j :: 0 <= j < i ==> cards[j] == Card(rankAt(j), suits[j])
    {
      cards := cards + [OfSuit(suits[i], rankAt(i))];
      i := i + 1;
    }
  }

  /** `Card[n1, ..., nk]`: one card per value, in order, each with the suit
      the random source gave for its position. */
  method OfValues(nums: seq<Int32>, suitAt: nat -> Suit) returns (cards: seq<Card>)
    ensures |cards| == |nums|
    ensures forall i :: 0 <= i < |nums| ==> cards[i].value == nums[i]
    ensures forall i :: 0 <= i < |nums| ==> cards[i].suit == suitAt(i)
  {
    cards := [];
    var i := 0;
    while i < |nums|
      invariant 0 <= i <= |nums|
      invariant |cards| == i
      invariant forall j :: 0 <= j < i ==> cards[j] == Card(nums[j], suitAt(j))
    {
      cards := cards + [OfValue(nums[i], suitAt(i))];
      i := i + 1;
    }
  }
}

=== FILE: client_discard.dfy ===
/** The discard step of the client's turn loop, lifted out of `main`: the
    player names slots of the dealt hand to discard (1-5) or says "stop";
    then the surviving cards are kept in order and as many new cards as
    there are emptied slots are asked for and appended. Console reads are
    the `inputs` sequence; the server's reply is the `drawn` parameter. */
module Client {

  import opened Wrappers
  import opened KotlinInt
  import opened KotlinText
  import opened Cards
  import opened PokerUtils

  /** The loop's variables: `choice` and `tempHand`, where `None` marks a
      slot chosen for discarding. */
  datatype Selection = Selection(choice: PokerPlay, temp: seq<Option<Card>>)

  /** Before the loop: nothing discarded, and the answer is "continue". */
  function Start(hand: seq<Card>): (st: Selection)
    ensures st.choice == Continue && |st.temp| == |hand|
    ensures forall i :: 0 <= i < |hand| ==> st.temp[i] == Some(hand[i])
  {
    Selection(Continue, seq(|hand|, i requires 0 <= i < |hand| => Some(hand[i])))
  }

  /** Every slot is empty (`tempHand.all { it == null }`). */
  predicate AllDiscarded(temp: seq<Option<Card>>) {
    forall i :: 0 <= i < |temp| ==> temp[i].None?
  }

  /** The loop's exit test: the player said stop, or nothing is left, that
      is, the number of cards asked for is the whole hand. */
  predicate Done(st: Selection): (b: bool)
    ensures b <==> st.choice == Stop || Requested(st.temp) == |st.temp|
  {
    st.choice == Stop || AllDiscarded(st.temp)
  }

  /** One line of input. A `PokerPlay` word only sets the choice. Otherwise
      an `Int` in 1..5 empties that slot (`None` when the hand is too short
      for it, where the list throws `IndexOutOfBoundsException`); any other
      number or text changes nothing (`continue` skips only the echo). */
  function Step(st: Selection, input: string): (r: Option<Selection>)
    ensures ParsePokerPlay(input).Some? ==>
      r == Some(Selection(ParsePokerPlay(input).value, st.temp))
    ensures ParsePokerPlay(input).None? && ToIntOrNull(input).Some? &&
            1 <= ToIntOrNull(input).value <= 5 ==>
      var k := ToIntOrNull(input).value - 1;
      (r.None? <==> k >= |st.temp|) &&
      (r.Some? ==> r.value.choice == st.choice && |r.value.temp| == |st.temp| &&
                   r.value.temp[k].None? &&
                   forall j :: 0 <= j < |st.temp| && j != k ==> r.value.temp[j] == st.temp[j])
    ensures ParsePokerPlay(input).None? &&
            (ToIntOrNull(input).None? || !(1 <= ToIntOrNull(input).value <= 5)) ==>
      r == Some(st)
    ensures r.None? ==> |st.temp| < 5
  {
    match ParsePokerPlay(input)
    case Some(p) => Some(st.(choice := p))
    case None =>
      match ToIntOrNull(input)
      case None => Some(st)
      case Some(n) =>
        if 1 <= n <= 5 then
          if n - 1 < |st.temp| then Some(st.(temp := st.temp[n - 1 := None])) else None
        else Some(st)
  }

  /** The slots only ever lose cards: each is the dealt card or empty. */
  ghost predicate DiscardsOf(hand: seq<Card>, temp: seq<Option<Card>>) {
    |temp| == |hand| && forall i :: 0 <= i < |hand| ==> temp[i] == Some(hand[i]) || temp[i].None?
  }

  /** A step keeps the hand's length and never brings a card back. */
  lemma StepKeepsDiscards(hand: seq<Card>, st: Selection, input: string)
    requires DiscardsOf(hand, st.temp)
    requires Step(st, input).Some?
    ensures DiscardsOf(hand, Step(st, input).value.temp)
  {
  }

  /** The lines read before the loop stops, folded over `Step` from the
      start: the reference the loop below is checked against. */
  function Replay(st: Selection, inputs: seq<string>): Option<Selection>
    decreases |inputs|
  {
    if |inputs| == 0 then Some(st)
    else
      match Replay(st, inputs[..|inputs| - 1])
      case None => None
      case Some(p) => Step(p, inputs[|inputs| - 1])
  }

  /** Reading one more line steps from where the shorter replay stopped. */
  lemma ReplayNext(start: Selection, inputs: seq<string>, n: nat)
    requires n < |inputs|
    ensures Replay(start, inputs[..n + 1]) ==
      match Replay(start, inputs[..n])
      case None => None
      case Some(p) => Step(p, inputs[n])
  {
    assert inputs[..n + 1][..n] == inputs[..n];
  }

  /** How reading ended: the exit test held, a line crashed the loop, or the
      console ran out of lines before the exit test held. */
  datatype Ending = Finished | Crashed | OutOfInput

  /** Every line among the first `n` left the loop running. */
  ghost predicate RunningThrough(start: Selection, inputs: seq<string>, n: nat)
    requires n <= |inputs|
  {
    forall k :: 1 <= k <= n ==>
      Replay(start, inputs[..k]).Some? && !Done(Replay(start, inputs[..k]).value)
  }

  /** The `do { ... } while (choice != STOP && !tempHand.all { it == null })`
      loop: read a line, step, and test the exit condition after every line,
      the first one included. */
  method SelectDiscards(hand: seq<Card>, inputs: seq<string>)
    returns (st: Selection, used: nat, ending: Ending)
    ensures used <= |inputs|
    ensures ending != Crashed ==> Replay(Start(hand), inputs[..used]) == Some(st)
    ensures ending != Crashed ==> DiscardsOf(hand, st.temp)
    ensures ending == Finished ==> used >= 1 && Done(st)
    ensures ending == OutOfInput ==> used == |inputs| && (used == 0 || !Done(st))
    ensures ending == Crashed ==> used >= 1 && Replay(Start(hand), inputs[..used]).None?
    ensures ending == Crashed ==> |hand| < 5
    ensures used >= 1 ==> RunningThrough(Start(hand), inputs, used - 1)
  {
    st := Start(hand);
    used := 0;
    ending := OutOfInput;
    while used < |inputs|
      invariant used <= |inputs|
      invariant Replay(Start(hand), inputs[..used]) == Some(st)
      invariant DiscardsOf(hand, st.temp)
      invariant used == 0 || !Done(st)
      invariant RunningThrough(Start(hand), inputs, used)
    {
      var next := Step(st, inputs[used]);
      Advance(hand, inputs, used, st);
      used := used + 1;
      if next.None? {
        ending := Crashed;
        return;
      }
      st := next.value;
      if Done(st) {
        ending := Finished;
        return;
      }
      assert RunningThrough(Start(hand), inputs, used);
    }
  }

  /** One iteration of the loop: the replay grows by one step, a step that
      survives keeps the discards, and only a short hand can crash. */
  lemma Advance(hand: seq<Card>, inputs: seq<string>, used: nat, st: Selection)
    requires used < |inputs|
    requires Replay(Start(hand), inputs[..used]) == Some(st)
    requires DiscardsOf(hand, st.temp)
    ensures Replay(Start(hand), inputs[..used + 1]) == Step(st, inputs[used])
    ensures Step(st, inputs[used]).Some? ==> DiscardsOf(hand, Step(st, inputs[used]).value.temp)
    ensures Step(st, inputs[used]).None? ==> |hand| < 5
  {
    ReplayNext(Start(hand), inputs, used);
    if Step(st, inputs[used]).Some? {
      StepKeepsDiscards(hand, st, inputs[used]);
    }
  }

  /** The positions of the emptied slots. */
  function EmptySlots(temp: seq<Option<Card>>): set<int> {
    set i | 0 <= i < |temp| && temp[i].None?
  }

  /** The emptied slots of a hand are those of all but its last slot, plus
      the last slot when it is empty. */
  lemma EmptySlotsSnoc(temp: seq<Option<Card>>)
    requires |temp| >= 1
    ensures var last := |temp| - 1;
      EmptySlots(temp) ==
        EmptySlots(temp[..last]) + (if temp[last].None? then {last} else {})
  {
  }

  /** `tempHand.count { it == null }`: how many cards are asked for. */
  function Requested(temp: seq<Option<Card>>): (n: nat)
    ensures n == |EmptySlots(temp)|
    ensures n <= |temp|
    ensures n == 0 <==> forall i :: 0 <= i < |temp| ==> temp[i].Some?
    ensures n == |temp| <==> AllDiscarded(temp)
  {
    if |temp| == 0 then
      assert EmptySlots(temp) == {};
      0
    else
      EmptySlotsSnoc(temp);
      Requested(temp[..|temp| - 1]) + (if temp[|temp| - 1].None? then 1 else 0)
  }

  /** `tempHand.removeIf { it == null }`: the kept cards in their order. */
  function Survivors(temp: seq<Option<Card>>): (cards: seq<Card>)
    ensures |cards| + Requested(temp) == |temp|
  {
    if |temp| == 0 then []
    else
      Survivors(temp[..|temp| - 1]) +
      (if temp[|temp| - 1].Some? then [temp[|temp| - 1].value] else [])
  }

  /** The redraw: drop the emptied slots, keep the rest in order, append the
      cards the server sent, and hand the result on with no empty slot. */
  method Redraw(temp: seq<Option<Card>>, drawn: seq<Card>) returns (hand: seq<Card>)
    ensures hand == Survivors(temp) + drawn
    ensures |hand| == |temp| - Requested(temp) + |drawn|
    ensures |drawn| == Requested(temp) ==> |hand| == |temp|
  {
    var kept: seq<Card> := [];
    var i := 0;
    while i < |temp|
      invariant 0 <= i <= |temp|
      invariant kept == Survivors(temp[..i])
    {
      assert temp[..i + 1][..i] == temp[..i];
      if temp[i].Some? {
        kept := kept + [temp[i].value];
      }
      i := i + 1;
    }
    assert temp[..|temp|] == temp;
    hand := kept + drawn;
  }

  /** The kept cards are the dealt hand with the emptied slots left out, in
      the dealt order: card `j` of the survivors is the card dealt into the
      `j`-th slot that was not emptied. */
  lemma {:induction false} SurvivorsAreKeptInOrder(hand: seq<Card>, temp: seq<Option<Card>>)
    requires DiscardsOf(hand, temp)
    ensures Survivors(temp) == KeptOf(hand, temp)
    decreases |temp|
  {
    if |temp| > 0 {
      var n := |temp| - 1;
      assert DiscardsOf(hand[..n], temp[..n]);
      SurvivorsAreKeptInOrder(hand[..n], temp[..n]);
      assert KeptOf(hand, temp) == KeptOf(hand[..n], temp[..n]) +
        (if temp[n].Some? then [hand[n]] else []) by {
        KeptOfSnoc(hand, temp);
      }
    }
  }

  /** The cards of `hand` whose slot in `temp` was not emptied, in order. */
  function KeptOf(hand: seq<Card>, temp: seq<Option<Card>>): seq<Card>
    requires |temp| == |hand|
    decreases |hand|
  {
    if |hand| == 0 then []
    else (if temp[0].Some? then [hand[0]] else []) + KeptOf(hand[1..], temp[1..])
  }

  lemma {:induction false} KeptOfSnoc(hand: seq<Card>, temp: seq<Option<Card>>)
    requires |temp| == |hand| && |hand| > 0
    ensures var n := |hand| - 1;
      KeptOf(hand, temp) == KeptOf(hand[..n], temp[..n]) + (if temp[n].Some? then [hand[n]] else [])
    decreases |hand|
  {
    var n := |hand| - 1;
    if n > 0 {
      KeptOfSnoc(hand[1..], temp[1..]);
      assert hand[1..][..n - 1] == hand[..n][1..];
      assert temp[1..][..n - 1] == temp[..n][1..];
    }
  }
}

=== FILE: flow_item.dfy ===
/** A `FlowItem<T>`: a value cell that broadcasts every write. The model keeps
    the current value and the log of values handed to the broadcast channel
    (one `sendLaunch` per write). A subscriber is described by the value
    `onStart` emits when its collection starts and the values handed to
    `send` after it joined; when those values actually arrive is up to the
    coroutine scheduler and is not modelled. */
module FlowItem {

  import opened Wrappers
  import opened KotlinInt

  /** The state of one `FlowItem<T>`: `value` is the backing field, `sent` the
      values handed to `sendLaunch`, oldest first. */
  datatype Cell<T> = Cell(value: T, sent: seq<T>)

  /** What a compound operation threw instead of writing. */
  datatype Exception = ArithmeticException | IndexOutOfBoundsException

  /** The cell after an operation, and what it threw, if anything. */
  datatype Outcome<T> = Outcome(cell: Cell<T>, thrown: Option<Exception>)

  /** `FlowItem(startingValue)`: the initializer stores the value without going
      through the broadcasting setter, so nothing has been sent yet. */
  function New<T>(start: T): (c: Cell<T>)
    ensures c.value == start && Version(c) == 0
  {
    Cell(start, [])
  }

  /** How many broadcasts the cell has made so far. */
  function Version<T>(c: Cell<T>): nat {
    |c.sent|
  }

  /** Going from `before` to `after` made exactly one broadcast, it carries
      the new current value, and the earlier log is untouched. */
  ghost predicate OneBroadcast<T>(before: Cell<T>, after: Cell<T>) {
    && Version(after) == Version(before) + 1
    && after.sent[..Version(before)] == before.sent
    && after.sent[Version(before)] == after.value
  }

  /** The last value broadcast, if any, is the current value. */
  ghost predicate Consistent<T>(c: Cell<T>) {
    Version(c) == 0 || c.sent[Version(c) - 1] == c.value
  }

  /** `getValue()`, also spelled `invoke()`: the backing field, which is the
      value of the latest broadcast once anything has been sent. */
  function Get<T>(c: Cell<T>): (v: T)
    ensures Consistent(c) && Version(c) > 0 ==> v == c.sent[Version(c) - 1]
  {
    c.value
  }

  /** `setValue(v)`, also spelled `invoke(v)`: store `v`, then send it. */
  function Set<T>(c: Cell<T>, v: T): (r: Cell<T>)
    ensures Get(r) == v
    ensures OneBroadcast(c, r)
  {
    Cell(v, c.sent + [v])
  }

  /** `now()`: write the current value back so that it is sent again. */
  function Now<T>(c: Cell<T>): (r: Cell<T>)
    ensures Get(r) == Get(c)
    ensures OneBroadcast(c, r)
  {
    Set(c, c.value)
  }

  /** Consistency is an invariant: a new cell has it, and every run of
      writes keeps it. */
  lemma {:induction false} WritesKeepConsistent<T>(start: T, ws: seq<Write<T>>)
    ensures Consistent(New(start))
    ensures Consistent(Run(New(start), ws))
  {
  }

  // ---------------------------------------------------------------------
  // Subscribers

  /** A collector of `flow`: the value `onStart` emitted when it began, and
      the position in the send log from which later sends reach it. */
  datatype Subscriber<T> = Subscriber(first: T, mark: nat)

  /** Start collecting: `onStart { emit(flowItem) }` replays the current value. */
  function Subscribe<T>(c: Cell<T>): (s: Subscriber<T>)
    ensures s.mark <= Version(c) && Delivered(c, s) == [Get(c)]
  {
    Subscriber(c.value, Version(c))
  }

  /** A subscriber's record: its replayed value, then every value handed
      to `send` since it joined. */
  function Delivered<T>(c: Cell<T>, s: Subscriber<T>): (d: seq<T>)
    requires s.mark <= Version(c)
    ensures |d| == 1 + Version(c) - s.mark
    ensures d[0] == s.first
    ensures forall k :: 1 <= k < |d| ==> d[k] == c.sent[s.mark + k - 1]
  {
    [s.first] + c.sent[s.mark..]
  }

  /** A write adds its value to the record of every subscriber that has
      joined, and nothing else. */
  lemma SetReachesEverySubscriber<T>(c: Cell<T>, s: Subscriber<T>, v: T)
    requires s.mark <= Version(c)
    ensures s.mark <= Version(Set(c, v))
    ensures Delivered(Set(c, v), s) == Delivered(c, s) + [v]
  {
    assert c.sent[s.mark..] + [v] == (c.sent + [v])[s.mark..];
  }

  /** A write that a caller can issue against the cell. */
  datatype Write<T> = SetTo(v: T) | CallNow

  function Apply<T>(c: Cell<T>, w: Write<T>): (r: Cell<T>)
    ensures OneBroadcast(c, r)
  {
    match w
    case SetTo(v) => Set(c, v)
    case CallNow => Now(c)
  }

  /** The cell after a run of writes, first to last. */
  function Run<T>(c: Cell<T>, ws: seq<Write<T>>): (r: Cell<T>)
    ensures Version(r) == Version(c) + |ws|
    ensures r.sent[..Version(c)] == c.sent
    decreases |ws|
  {
    if |ws| == 0 then c
    else
      var p := Run(c, ws[..|ws| - 1]);
      var r := Apply(p, ws[|ws| - 1]);
      assert r.sent[..Version(c)] == p.sent[..Version(c)];
      r
  }

  /** Replay on join: for a subscriber that starts collecting and is
      followed by a run of writes, the record is the value current when it
      joined, then the value the cell held after each write, in order; the
      last entry is the cell's current value. */
  lemma {:induction false} ReplayOnJoin<T>(c: Cell<T>, ws: seq<Write<T>>)
    ensures Subscribe(c).mark <= Version(Run(c, ws))
    ensures Delivered(Run(c, ws), Subscribe(c))[0] == Get(c)
    ensures |Delivered(Run(c, ws), Subscribe(c))| == |ws| + 1
    ensures forall k :: 1 <= k <= |ws| ==>
      Delivered(Run(c, ws), Subscribe(c))[k] == Get(Run(c, ws[..k]))
    ensures Delivered(Run(c, ws), Subscribe(c))[|ws|] == Get(Run(c, ws))
    decreases |ws|
  {
    var sub := Subscribe(c);
    assert sub == Subscriber(c.value, Version(c));
    if |ws| > 0 {
      var init := ws[..|ws| - 1];
      ReplayOnJoin(c, init);
      var p := Run(c, init);
      var r := Run(c, ws);
      assert r == Apply(p, ws[|ws| - 1]);
      forall k | 1 <= k <= |ws|
        ensures Delivered(r, sub)[k] == Get(Run(c, ws[..k]))
      {
        if k < |ws| {
          assert init[..k] == ws[..k];
          assert r.sent[Version(c) + k - 1] == p.sent[Version(c) + k - 1] by {
            assert r.sent[..Version(p)] == p.sent;
          }
        } else {
          assert ws[..k] == ws;
        }
      }
    }
  }

  // ---------------------------------------------------------------------
  // Boolean cells

  /** `!cell` on a `FlowItem<Boolean>`: write back the negation. */
  function Not(c: Cell<bool>): (r: Cell<bool>)
    ensures Get(r) != Get(c)
    ensures OneBroadcast(c, r)
  {
    Set(c, !Get(c))
  }

  /** Negating twice restores the value and costs two broadcasts. */
  lemma NotTwice(c: Cell<bool>)
    ensures Get(Not(Not(c))) == Get(c)
    ensures Version(Not(Not(c))) == Version(c) + 2
  {
  }

  // ---------------------------------------------------------------------
  // List and collection cells

  /** `cell[i]` on a list cell: the element, or `None` where the list throws
      `IndexOutOfBoundsException`. Reading sends nothing. */
  function ListGet<E>(c: Cell<seq<E>>, i: int): (r: Option<E>)
    ensures r.Some? <==> 0 <= i < |Get(c)|
    ensures r.Some? ==> r.value == Get(c)[i]
  {
    if 0 <= i < |c.value| then Some(c.value[i]) else None
  }

  /** `cell[i] = x`: replace one element in place, then write the list back
      through `setValue`. An index outside the list throws before the write. */
  function ListSet<E>(c: Cell<seq<E>>, i: int, x: E): (o: Outcome<seq<E>>)
    ensures o.thrown.Some? <==> !(0 <= i < |Get(c)|)
    ensures o.thrown.Some? ==> o.cell == c && o.thrown == Some(IndexOutOfBoundsException)
    ensures o.thrown.None? ==> OneBroadcast(c, o.cell)
    ensures o.thrown.None? ==> |Get(o.cell)| == |Get(c)| && Get(o.cell)[i] == x
    ensures o.thrown.None? ==>
      forall j :: 0 <= j < |Get(c)| && j != i ==> Get(o.cell)[j] == Get(c)[j]
  {
    if 0 <= i < |c.value| then Outcome(Set(c, c.value[i := x]), None)
    else Outcome(c, Some(IndexOutOfBoundsException))
  }

  /** `cell += x` on a list cell: append `x`, then write the list back. */
  function ListAppend<E>(c: Cell<seq<E>>, x: E): (r: Cell<seq<E>>)
    ensures OneBroadcast(c, r)
    ensures |Get(r)| == |Get(c)| + 1
    ensures Get(r)[..|Get(c)|] == Get(c) && Get(r)[|Get(c)|] == x
  {
    Set(c, c.value + [x])
  }

  /** The mutable collections a `FlowItem` may hold for `add`, `contains` and
      `size`: a list (duplicates allowed) or a set. */
  datatype Collection<E> = ListColl(items: seq<E>) | SetColl(elems: set<E>)

  /** `x in cell`. */
  predicate Contains<E>(c: Cell<Collection<E>>, x: E) {
    match c.value
    case ListColl(items) => x in items
    case SetColl(elems) => x in elems
  }

  /** `cell.size`. */
  function Size<E>(c: Cell<Collection<E>>): nat {
    match c.value
    case ListColl(items) => |items|
    case SetColl(elems) => |elems|
  }

  /** `cell.add(x)`: the collection's own `add` result (a list always accepts,
      a set refuses an element it holds), followed by one `now()` whether or
      not anything was added. */
  function Add<E(!new)>(c: Cell<Collection<E>>, x: E): (r: (bool, Cell<Collection<E>>))
    ensures r.0 <==> c.value.ListColl? || !Contains(c, x)
    ensures OneBroadcast(c, r.1)
    ensures Contains(r.1, x)
    ensures forall y :: y != x ==> (Contains(r.1, y) <==> Contains(c, y))
    ensures Size(r.1) == Size(c) + (if r.0 then 1 else 0)
    ensures !r.0 ==> Get(r.1) == Get(c)
    ensures c.value.SetColl? ==> Get(r.1).SetColl?
    ensures c.value.ListColl? ==>
      var before, after := c.value.items, Get(r.1);
      after.ListColl? && |after.items| == |before| + 1 &&
      after.items[..|before|] == before && after.items[|before|] == x
  {
    match c.value
    case ListColl(items) => (true, Now(Cell(ListColl(items + [x]), c.sent)))
    case SetColl(elems) =>
      if x in elems then (false, Now(c))
      else (true, Now(Cell(SetColl(elems + {x}), c.sent)))
  }

  // ---------------------------------------------------------------------
  // Numeric cells

  /** The boxed value of a `FlowItem<T : Number>`, by its run-time class.
      `Other` is any further `Number` class, with what its own `toInt()`,
      `toShort()` and `toLong()` return. */
  datatype Number =
    | IntNum(i: Int32)
    | ShortNum(s: Int16)
    | LongNum(l: Int64)
    | OtherNum(asInt: Int32, asShort: Int16, asLong: Int64)

  /** `n.toInt()`: a Long keeps its low 32 bits. */
  function ToInt(n: Number): (r: Int32)
    ensures !n.OtherNum? ==> (Magnitude(n) - r) % Modulus(W32) == 0
    ensures n.OtherNum? ==> r == n.asInt
  {
    match n
    case IntNum(i) => i
    case ShortNum(s) => s
    case LongNum(l) => Wrap(l, W32)
    case OtherNum(i, _, _) => i
  }

  /** `n.toShort()`: an Int or a Long keeps its low 16 bits. */
  function ToShort(n: Number): (r: Int16)
    ensures !n.OtherNum? ==> (Magnitude(n) - r) % Modulus(W16) == 0
    ensures n.OtherNum? ==> r == n.asShort
  {
    match n
    case IntNum(i) => Wrap(i, W16)
    case ShortNum(s) => s
    case LongNum(l) => Wrap(l, W16)
    case OtherNum(_, s, _) => s
  }

  /** `n.toLong()`. */
  function ToLong(n: Number): (r: Int64)
    ensures !n.OtherNum? ==> r == Magnitude(n)
    ensures n.OtherNum? ==> r == n.asLong
  {
    match n
    case IntNum(i) => i
    case ShortNum(s) => s
    case LongNum(l) => l
    case OtherNum(_, _, l) => l
  }

  /** The integer a value of a listed class holds, and that class's width. */
  function Magnitude(n: Number): int
    requires !n.OtherNum?
  {
    match n
    case IntNum(i) => i
    case ShortNum(s) => s
    case LongNum(l) => l
  }

  function WidthOf(n: Number): Width
    requires !n.OtherNum?
  {
    match n
    case IntNum(_) => W32
    case ShortNum(_) => W16
    case LongNum(_) => W64
  }

  /** The operand as the branch for the current value's class converts it. */
  function Operand(current: Number, other: Number): int
    requires !current.OtherNum?
  {
    match current
    case IntNum(_) => ToInt(other)
    case ShortNum(_) => ToShort(other)
    case LongNum(_) => ToLong(other)
  }

  predicate SameClass(a: Number, b: Number) {
    (a.IntNum? && b.IntNum?) || (a.ShortNum? && b.ShortNum?) ||
    (a.LongNum? && b.LongNum?) || (a.OtherNum? && b.OtherNum?)
  }

  /** Two Shorts are combined as Ints and narrowed by `toShort()`; the result
      is still the exact result modulo 2^16. */
  lemma ShortResult(op: ArithOp, a: Int16, b: Int16)
    requires Divides(op) ==> b != 0
    ensures (Exact(op, a, b) - Wrap(Arith(op, a, b, W32).value, W16)) % Modulus(W16) == 0
  {
    var e := Exact(op, a, b);
    assert Arith(op, a, b, W32).value == Wrap(e, W32);
    ShortOfInt(e);
  }

  /** The value the branch for the current value's class computes, or `None`
      where it throws `ArithmeticException`. */
  function NumResult(current: Number, op: ArithOp, other: Number): (r: Option<Number>)
    requires !current.OtherNum?
    ensures r.None? <==> Divides(op) && Operand(current, other) == 0
    ensures r.Some? ==> SameClass(r.value, current)
    ensures r.Some? ==>
      (Exact(op, Magnitude(current), Operand(current, other)) - Magnitude(r.value))
        % Modulus(WidthOf(current)) == 0
  {
    match current
    case IntNum(a) =>
      (match Arith(op, a, ToInt(other), W32)
       case None => None
       case Some(n) => Some(IntNum(n)))
    case ShortNum(a) =>
      (match Arith(op, a, ToShort(other), W32)
       case None => None
       case Some(n) =>
         ShortResult(op, a, ToShort(other));
         Some(ShortNum(Wrap(n, W16))))
    case LongNum(a) =>
      (match Arith(op, a, ToLong(other), W64)
       case None => None
       case Some(n) => Some(LongNum(n)))
  }

  /** `cell += other`, `-=`, `*=`, `/=` and `%=`: the branch is chosen by the
      class of the current value. An Int or a Long is combined in its own
      width; two Shorts are combined as Ints and narrowed by `toShort()`; any
      other class is written back unchanged. Integer `/` and `%` by zero throw
      before `setValue`, so neither the value nor the send log changes. */
  function Compound(c: Cell<Number>, op: ArithOp, other: Number): (o: Outcome<Number>)
    ensures o.thrown.Some? <==>
      Divides(op) && !Get(c).OtherNum? && Operand(Get(c), other) == 0
    ensures o.thrown.Some? ==> o.cell == c && o.thrown == Some(ArithmeticException)
    ensures o.thrown.None? ==> OneBroadcast(c, o.cell) && SameClass(Get(o.cell), Get(c))
    ensures o.thrown.None? && !Get(c).OtherNum? ==>
      (Exact(op, Magnitude(Get(c)), Operand(Get(c), other)) - Magnitude(Get(o.cell)))
        % Modulus(WidthOf(Get(c))) == 0
    ensures Get(c).OtherNum? ==> o.thrown.None? && Get(o.cell) == Get(c)
  {
    if c.value.OtherNum? then Outcome(Set(c, c.value), None)
    else
      match NumResult(c.value, op, other)
      case None => Outcome(c, Some(ArithmeticException))
      case Some(n) => Outcome(Set(c, n), None)
  }

  /** Worked cases of `/=` and `%=`: the quotient truncates toward zero and
      the remainder takes the dividend's sign. */
  lemma DivisionExamples()
    ensures Get(Compound(New(IntNum(7)), Div, IntNum(2)).cell) == IntNum(3)
    ensures Get(Compound(New(IntNum(-7)), Div, IntNum(2)).cell) == IntNum(-3)
    ensures Get(Compound(New(IntNum(-7)), Mod, IntNum(2)).cell) == IntNum(-1)
    ensures Get(Compound(New(IntNum(7)), Mod, IntNum(-2)).cell) == IntNum(1)
  {
    assert Quot(7, 2) == 3 && Quot(-7, 2) == -3;
    assert Rem(-7, 2) == -1 && Rem(7, -2) == 1;
    WrapInRange(3, W32);
    WrapInRange(-3, W32);
    WrapInRange(-1, W32);
    WrapInRange(1, W32);
  }

  /** Worked cases of overflow: `Int` and `Short` wrap around, and
      `Short.MIN_VALUE / -1` is `Short.MIN_VALUE` again. */
  lemma OverflowExamples()
    ensures Get(Compound(New(IntNum(0x7fff_ffff)), Plus, IntNum(1)).cell) == IntNum(-0x8000_0000)
    ensures Get(Compound(New(ShortNum(0x7fff)), Plus, ShortNum(1)).cell) == ShortNum(-0x8000)
    ensures Get(Compound(New(ShortNum(-0x8000)), Div, ShortNum(-1)).cell) == ShortNum(-0x8000)
  {
    assert Wrap(0x8000_0000, W32) == -0x8000_0000;
    WrapInRange(0x8000, W32);
    assert Wrap(0x8000, W16) == -0x8000;
    assert Quot(-0x8000, -1) == 0x8000;
  }

  /** `/=` by zero throws and leaves the cell exactly as it was. */
  lemma DivisionByZeroExample()
    ensures Compound(New(IntNum(5)), Div, IntNum(0)) == Outcome(New(IntNum(5)), Some(ArithmeticException))
  {
  }
}

=== FILE: kotlin_int.dfy ===
/** Kotlin's fixed-width integer arithmetic on the JVM, written out over
    Dafny's unbounded integers: two's-complement wrap-around of `+ - *`,
    division that truncates toward zero, a remainder that takes the sign of
    the dividend, and `Int.MIN_VALUE / -1 == Int.MIN_VALUE`. */
module KotlinInt {

  import opened Wrappers

  /** The word widths of `kotlin.Short`, `kotlin.Int` and `kotlin.Long`. */
  datatype Width = W16 | W32 | W64

  function Modulus(w: Width): int {
    match w
    case W16 => 0x1_0000
    case W32 => 0x1_0000_0000
    case W64 => 0x1_0000_0000_0000_0000
  }

  /** `x` is a value of the signed type of width `w`. */
  predicate InWindow(x: int, w: Width) {
    -(Modulus(w) / 2) <= x < Modulus(w) / 2
  }

  type Int16 = x: int | InWindow(x, W16)
  type Int32 = x: int | InWindow(x, W32)
  type Int64 = x: int | InWindow(x, W64)

  /** The two's-complement value of `x` in a word of width `w` (what the JVM
      keeps of an overflowing result, and what `toShort`/`toInt` keep). */
  function Wrap(x: int, w: Width): (r: int)
    ensures InWindow(r, w)
    ensures (x - r) % Modulus(w) == 0
  {
    var m := Modulus(w);
    var k := x % m;
    if k >= m / 2 then k - m else k
  }

  /** Two values of the same signed type that are congruent are equal. */
  lemma WindowUnique(a: int, b: int, w: Width)
    requires InWindow(a, w) && InWindow(b, w)
    requires (a - b) % Modulus(w) == 0
    ensures a == b
  {
  }

  /** A value that already fits is kept unchanged. */
  lemma WrapInRange(x: int, w: Width)
    requires InWindow(x, w)
    ensures Wrap(x, w) == x
  {
    WindowUnique(Wrap(x, w), x, w);
  }

  /** Wrapping only depends on the residue modulo the word size. */
  lemma WrapCongruent(x: int, y: int, w: Width)
    requires (x - y) % Modulus(w) == 0
    ensures Wrap(x, w) == Wrap(y, w)
  {
    var m := Modulus(w);
    var a, b, c := (x - Wrap(x, w)) / m, (y - Wrap(y, w)) / m, (x - y) / m;
    assert x - Wrap(x, w) == a * m && y - Wrap(y, w) == b * m && x - y == c * m;
    assert Wrap(x, w) - Wrap(y, w) == (c - a + b) * m;
    WindowUnique(Wrap(x, w), Wrap(y, w), w);
  }

  /** Computing in `Int` and narrowing with `toShort()` is the same as
      narrowing the exact result: `x.toInt().toShort() == x.toShort()`. */
  lemma ShortOfInt(x: int)
    ensures Wrap(Wrap(x, W32), W16) == Wrap(x, W16)
  {
    var w := Wrap(x, W32);
    var d := (x - w) / 0x1_0000_0000;
    assert x - w == d * 0x1_0000_0000;
    assert x - w == (d * 0x1_0000) * 0x1_0000;
    WrapCongruent(x, w, W16);
  }

  function Abs(x: int): nat {
    if x < 0 then -x else x
  }

  /** Division of magnitudes: `|a| == (|a| / |b|) * |b| + |a| % |b|`. */
  lemma MagnitudeDivision(a: int, b: int)
    requires b != 0
    ensures Abs(a) == (Abs(a) / Abs(b)) * Abs(b) + Abs(a) % Abs(b)
    ensures 0 <= Abs(a) % Abs(b) < Abs(b)
    ensures 0 <= Abs(a) % Abs(b) <= Abs(a)
    ensures Abs(a) / Abs(b) >= 0
    ensures Abs(a) < (Abs(a) / Abs(b) + 1) * Abs(b)
  {
    var n, m := Abs(a) / Abs(b), Abs(b);
    assert (n + 1) * m == n * m + m;
  }

  /** Kotlin's integer `/`: the exact quotient truncated toward zero. */
  function Quot(a: int, b: int): (q: int)
    requires b != 0
    ensures Abs(q) * Abs(b) <= Abs(a) < (Abs(q) + 1) * Abs(b)
    ensures q > 0 ==> (a < 0) == (b < 0)
    ensures q < 0 ==> (a < 0) != (b < 0)
  {
    MagnitudeDivision(a, b);
    var n := Abs(a) / Abs(b);
    if (a < 0) == (b < 0) then n else -n
  }

  /** Kotlin's integer `%`: what `Quot` leaves over, with the dividend's sign. */
  function Rem(a: int, b: int): (r: int)
    requires b != 0
    ensures a == Quot(a, b) * b + r
    ensures Abs(r) < Abs(b) && Abs(r) <= Abs(a)
    ensures a > 0 ==> r >= 0
    ensures a < 0 ==> r <= 0
  {
    MagnitudeDivision(a, b);
    QuotTimesDivisor(a, b);
    var n := Abs(a) % Abs(b);
    if a < 0 then -n else n
  }

  /** `Quot(a, b) * b` is the multiple of `|b|` below `|a|`, signed like `a`. */
  lemma QuotTimesDivisor(a: int, b: int)
    requires b != 0
    ensures var p := (Abs(a) / Abs(b)) * Abs(b);
      Quot(a, b) * b == if a < 0 then -p else p
  {
    var m: int := Abs(b);
    var q: int := Abs(a) / m;
    var qt := Quot(a, b);
    if b < 0 {
      assert b == -m;
      assert qt * b == -(qt * m);
      if a < 0 {
        assert qt == q;
      } else {
        assert qt == -q;
        assert qt * m == -(q * m);
      }
    } else {
      assert b == m;
      if a < 0 {
        assert qt == -q;
        assert qt * m == -(q * m);
      } else {
        assert qt == q;
      }
    }
  }

  /** A non-zero multiple of `b` is at least as large as `b`. */
  lemma {:induction false} MulAtLeast(k: int, b: int)
    requires k != 0
    ensures Abs(k * b) >= Abs(b)
    decreases Abs(k)
  {
    if k > 1 {
      MulAtLeast(k - 1, b);
      assert k * b == (k - 1) * b + b;
    } else if k < -1 {
      MulAtLeast(k + 1, b);
      assert k * b == (k + 1) * b - b;
    }
  }

  /** Truncating division is the only division with these properties: any
      `q, r` with `a == q * b + r`, `|r| < |b|` and `r` carrying the sign of
      `a` are `Quot(a, b)` and `Rem(a, b)`. */
  lemma {:induction false} QuotRemUnique(a: int, b: int, q: int, r: int)
    requires b != 0
    requires a == q * b + r && Abs(r) < Abs(b)
    requires a > 0 ==> r >= 0
    requires a < 0 ==> r <= 0
    ensures q == Quot(a, b) && r == Rem(a, b)
  {
    var q0, r0 := Quot(a, b), Rem(a, b);
    assert a == q0 * b + r0;
    assert Abs(r0 - r) < Abs(b);
    SameRemainderClass(b, q, r, q0, r0);
  }

  /** Two ways of writing one number as a multiple of `b` plus a remainder
      closer together than `|b|` use the same multiple. */
  lemma SameRemainderClass(b: int, q: int, r: int, q0: int, r0: int)
    ensures b != 0 && q * b + r == q0 * b + r0 && Abs(r0 - r) < Abs(b) ==>
      q == q0 && r == r0
  {
    if b != 0 && q * b + r == q0 * b + r0 && Abs(r0 - r) < Abs(b) {
      assert (q - q0) * b == r0 - r by {
        assert (q - q0) * b == q * b - q0 * b;
      }
      if q != q0 {
        MulAtLeast(q - q0, b);
        assert false;
      }
    }
  }

  /** The compound-assignment operators of `FlowItem`. */
  datatype ArithOp = Plus | Minus | Times | Div | Mod

  predicate Divides(op: ArithOp) {
    op == Div || op == Mod
  }

  /** The mathematically exact result of `a op b` (truncating for `/`, `%`). */
  function Exact(op: ArithOp, a: int, b: int): int
    requires Divides(op) ==> b != 0
  {
    match op
    case Plus => a + b
    case Minus => a - b
    case Times => a * b
    case Div => Quot(a, b)
    case Mod => Rem(a, b)
  }

  /** `a op b` evaluated in a JVM word of width `w`: `None` when it throws
      `ArithmeticException` (integer division or remainder by zero), else the
      exact result wrapped into the word. */
  function Arith(op: ArithOp, a: int, b: int, w: Width): (r: Option<int>)
    ensures r.None? <==> Divides(op) && b == 0
    ensures r.Some? ==> InWindow(r.value, w)
    ensures r.Some? ==> (Exact(op, a, b) - r.value) % Modulus(w) == 0
  {
    if Divides(op) && b == 0 then None
    else Some(Wrap(Exact(op, a, b), w))
  }

  /** A result that fits its word is computed exactly: only overflow wraps. */
  lemma ArithExactWhenInRange(op: ArithOp, a: int, b: int, w: Width)
    requires Divides(op) ==> b != 0
    requires InWindow(Exact(op, a, b), w)
    ensures Arith(op, a, b, w) == Some(Exact(op, a, b))
  {
    WrapInRange(Exact(op, a, b), w);
  }

  /** `%` never overflows: the remainder of two values of a type fits it. */
  lemma RemNeverWraps(a: int, b: int, w: Width)
    requires InWindow(a, w) && b != 0
    ensures Arith(Mod, a, b, w) == Some(Rem(a, b))
  {
    ArithExactWhenInRange(Mod, a, b, w);
  }

  /** The one overflowing division: `MIN_VALUE / -1` is `MIN_VALUE` again. */
  lemma MinDivMinusOne(w: Width)
    ensures Arith(Div, -(Modulus(w) / 2), -1, w) == Some(-(Modulus(w) / 2))
  {
    match w
    case W16 =>
      assert Quot(-0x8000, -1) == 0x8000;
      assert Wrap(0x8000, W16) == -0x8000;
    case W32 =>
      assert Quot(-0x8000_0000, -1) == 0x8000_0000;
      assert Wrap(0x8000_0000, W32) == -0x8000_0000;
    case W64 =>
      assert Quot(-0x8000_0000_0000_0000, -1) == 0x8000_0000_0000_0000;
      assert Wrap(0x8000_0000_0000_0000, W64) == -0x8000_0000_0000_0000;
  }
}

=== FILE: kotlin_text.dfy ===
/** The parts of Kotlin's string library the client relies on, restricted to
    ASCII: `toUpperCase`/`toLowerCase`, the decimal rendering of an `Int` used
    by string templates (`"$value"`), `String.toIntOrNull()` and
    `joinToString` with its default separator. */
module KotlinText {

  import opened Wrappers
  import opened KotlinInt

  function UpperChar(c: char): char {
    if 'a' <= c <= 'z' then (c as int - 32) as char else c
  }

  function LowerChar(c: char): char {
    if 'A' <= c <= 'Z' then (c as int + 32) as char else c
  }

  /** `s.toUpperCase()` for ASCII letters; every other character is kept. */
  function Upper(s: string): (r: string)
    ensures |r| == |s|
    ensures forall i :: 0 <= i < |s| ==> r[i] == UpperChar(s[i])
    ensures forall i :: 0 <= i < |s| ==> !('a' <= r[i] <= 'z')
  {
    seq(|s|, i requires 0 <= i < |s| => UpperChar(s[i]))
  }

  /** `s.toLowerCase()` for ASCII letters; every other character is kept. */
  function Lower(s: string): (r: string)
    ensures |r| == |s|
    ensures forall i :: 0 <= i < |s| ==> r[i] == LowerChar(s[i])
    ensures forall i :: 0 <= i < |s| ==> !('A' <= r[i] <= 'Z')
  {
    seq(|s|, i requires 0 <= i < |s| => LowerChar(s[i]))
  }

  /** Upper-casing twice is upper-casing once. */
  lemma UpperIdempotent(s: string)
    ensures Upper(Upper(s)) == Upper(s)
  {
  }

  /** `a.equals(b, ignoreCase = true)`: the same length, and at each
      position the same character up to the case of an ASCII letter. */
  predicate EqualsIgnoreCase(a: string, b: string) {
    |a| == |b| && forall i :: 0 <= i < |a| ==> UpperChar(a[i]) == UpperChar(b[i])
  }

  /** Comparing upper-cased forms is comparing ignoring case. */
  lemma UpperEqualIffIgnoreCase(a: string, b: string)
    ensures Upper(a) == Upper(b) <==> EqualsIgnoreCase(a, b)
  {
    if EqualsIgnoreCase(a, b) {
      assert forall i :: 0 <= i < |a| ==> Upper(a)[i] == Upper(b)[i];
    }
  }

  /** A string with no lower-case ASCII letter matches `s` ignoring case
      exactly when it is `s` upper-cased. */
  lemma UpperMatchesWord(s: string, word: string)
    requires forall i :: 0 <= i < |word| ==> !('a' <= word[i] <= 'z')
    ensures Upper(s) == word <==> EqualsIgnoreCase(s, word)
  {
    assert Upper(word) == word;
    UpperEqualIffIgnoreCase(s, word);
  }

  /** `t` occurs in `s` starting at position `i`. */
  predicate OccursAt(s: string, t: string, i: nat) {
    i + |t| <= |s| && s[i..i + |t|] == t
  }

  /** `s.contains(t)`: scan `s` from the left for a copy of `t`. */
  predicate ContainsText(s: string, t: string): (b: bool)
    ensures b <==> exists i: nat :: OccursAt(s, t, i)
    decreases |s|
  {
    if |s| < |t| then
      assert forall i: nat :: !OccursAt(s, t, i);
      false
    else if s[..|t|] == t then
      assert OccursAt(s, t, 0);
      true
    else
      OccursShift(s, t);
      ContainsText(s[1..], t)
  }

  /** Dropping the first character moves every later occurrence one place
      to the left. */
  lemma OccursShift(s: string, t: string)
    requires |s| >= 1
    ensures forall i: nat :: OccursAt(s[1..], t, i) <==> OccursAt(s, t, i + 1)
    ensures forall i: nat :: i >= 1 ==> (OccursAt(s, t, i) <==> OccursAt(s[1..], t, i - 1))
  {
    forall i: nat
      ensures OccursAt(s[1..], t, i) <==> OccursAt(s, t, i + 1)
    {
      if i + 1 + |t| <= |s| {
        assert s[1..][i..i + |t|] == s[i + 1..i + 1 + |t|];
      }
    }
  }

  /** `s.split(";")`: the pieces of `s` between semicolons, in order. */
  function Fields(s: string): (fs: seq<string>)
    ensures |fs| >= 1
    decreases |s|
  {
    if |s| == 0 then [""]
    else
      var rest := Fields(s[1..]);
      if s[0] == ';' then [""] + rest
      else [[s[0]] + rest[0]] + rest[1..]
  }

  /** A piece without semicolons is one field, and a piece followed by ';'
      splits off as the first field. */
  lemma {:induction false} FieldsOfPiece(a: string, x: string)
    requires forall i :: 0 <= i < |a| ==> a[i] != ';'
    ensures Fields(a) == [a]
    ensures Fields(a + ";" + x) == [a] + Fields(x)
    decreases |a|
  {
    if |a| == 0 {
      assert a + ";" + x == [';'] + x;
      assert (a + ";" + x)[1..] == x;
    } else {
      FieldsOfPiece(a[1..], x);
      assert [a[0]] + a[1..] == a;
      var ax := a + ";" + x;
      assert ax[0] == a[0] && ax[1..] == a[1..] + ";" + x;
      assert Fields(ax) == [[a[0]] + a[1..]] + Fields(x);
    }
  }

  /** A decimal rendering never contains ';'. */
  lemma NoSemicolonInNumber(n: int)
    ensures forall i :: 0 <= i < |IntToString(n)| ==> IntToString(n)[i] != ';'
  {
    var s := IntToString(n);
    if n < 0 {
      forall i | 1 <= i < |s| ensures s[i] != ';' {
        assert s[1..][i - 1] == s[i];
      }
    }
  }

  predicate IsDigit(c: char) {
    '0' <= c <= '9'
  }

  predicate AllDigits(s: string) {
    forall i :: 0 <= i < |s| ==> IsDigit(s[i])
  }

  function DigitChar(d: nat): (c: char)
    requires d < 10
    ensures IsDigit(c)
  {
    ('0' as int + d) as char
  }

  /** The decimal digits of `n`: at least one, and no leading zero. */
  function NatToString(n: nat): (r: string)
    ensures |r| >= 1 && AllDigits(r)
    ensures |r| > 1 ==> r[0] != '0'
    ensures n < 10 <==> |r| == 1
  {
    if n < 10 then [DigitChar(n)] else NatToString(n / 10) + [DigitChar(n % 10)]
  }

  /** `n.toString()`: the digits of `|n|`, after a '-' when `n` is negative. */
  function IntToString(n: int): (r: string)
    ensures |r| >= 1
    ensures n < 0 <==> r[0] == '-'
    ensures n >= 0 ==> AllDigits(r)
    ensures n < 0 ==> AllDigits(r[1..]) && |r| >= 2
  {
    if n < 0 then "-" + NatToString(-n) else NatToString(n)
  }

  /** The number a string of decimal digits denotes. */
  function DigitsValue(s: string): nat
    requires AllDigits(s)
  {
    if |s| == 0 then 0
    else DigitsValue(s[..|s| - 1]) * 10 + (s[|s| - 1] as int - '0' as int)
  }

  /** Reading back the digits of `n` gives `n`. */
  lemma {:induction false} DigitsRoundTrip(n: nat)
    ensures DigitsValue(NatToString(n)) == n
  {
    if n >= 10 {
      var s := NatToString(n);
      assert s[..|s| - 1] == NatToString(n / 10);
      DigitsRoundTrip(n / 10);
    }
  }

  /** `s.toIntOrNull()` (radix 10): an optional leading '-' or '+', then one
      or more ASCII digits whose value fits an `Int`; `null` otherwise. */
  function ToIntOrNull(s: string): (r: Option<Int32>)
    ensures r.Some? ==> |s| >= 1
    ensures r.Some? && s[0] != '-' ==> r.value >= 0
    ensures r.Some? && s[0] == '-' ==> r.value <= 0
    ensures |s| >= 1 && s[0] != '-' && s[0] != '+' && !AllDigits(s) ==> r.None?
    ensures r.Some? ==>
      (|s| >= 1 && AllDigits(s)) || (|s| >= 2 && (s[0] == '-' || s[0] == '+') && AllDigits(s[1..]))
    ensures |s| >= 1 && AllDigits(s) ==>
      r == if InWindow(DigitsValue(s), W32) then Some(DigitsValue(s)) else None
    ensures |s| >= 2 && s[0] == '+' && AllDigits(s[1..]) ==>
      r == if InWindow(DigitsValue(s[1..]), W32) then Some(DigitsValue(s[1..])) else None
    ensures |s| >= 2 && s[0] == '-' && AllDigits(s[1..]) ==>
      r == if InWindow(-(DigitsValue(s[1..]) as int), W32) then Some(-(DigitsValue(s[1..]) as int)) else None
  {
    if |s| == 0 then None
    else if s[0] < '0' then
      if |s| == 1 then None
      else if s[0] == '-' && AllDigits(s[1..]) && InWindow(-(DigitsValue(s[1..]) as int), W32) then
        Some(-(DigitsValue(s[1..]) as int))
      else if s[0] == '+' && AllDigits(s[1..]) && InWindow(DigitsValue(s[1..]), W32) then
        Some(DigitsValue(s[1..]))
      else None
    else if AllDigits(s) && InWindow(DigitsValue(s), W32) then Some(DigitsValue(s))
    else None
  }

  /** Every `Int` survives rendering and parsing back. */
  lemma ToIntOrNullRoundTrip(n: Int32)
    ensures ToIntOrNull(IntToString(n)) == Some(n)
  {
    var s := IntToString(n);
    if n < 0 {
      var digits := NatToString(-(n as int));
      assert s == "-" + digits && s[1..] == digits;
      DigitsRoundTrip(-(n as int));
      assert s[0] < '0' && |s| > 1 && AllDigits(s[1..]);
      assert -(DigitsValue(s[1..]) as int) == n;
    } else {
      assert s == NatToString(n);
      DigitsRoundTrip(n);
      assert IsDigit(s[0]) && AllDigits(s);
      assert DigitsValue(s) == n;
    }
  }

  /** Different numbers are written differently. */
  lemma IntToStringInjective(m: Int32, n: Int32)
    requires IntToString(m) == IntToString(n)
    ensures m == n
  {
    ToIntOrNullRoundTrip(m);
    ToIntOrNullRoundTrip(n);
  }

  /** `items.joinToString()`: the items in order, separated by `sep`. */
  function Join(items: seq<string>, sep: string): (s: string)
    ensures |items| == 0 ==> s == ""
    ensures |items| >= 1 ==> |s| >= |items[0]| && s[..|items[0]|] == items[0]
    ensures |items| >= 1 ==>
      var last := items[|items| - 1];
      |s| >= |last| && s[|s| - |last|..] == last
  {
    if |items| == 0 then ""
    else if |items| == 1 then items[0]
    else items[0] + sep + Join(items[1..], sep)
  }

  /** Joining an item in front of a non-empty run puts one separator
      between it and the run's join. */
  lemma JoinCons(x: string, rest: seq<string>, sep: string)
    requires |rest| >= 1
    ensures Join([x] + rest, sep) == x + sep + Join(rest, sep)
  {
    assert ([x] + rest)[1..] == rest;
  }

  /** Joining two non-empty runs of items is joining each and putting one
      separator between them. */
  lemma {:induction false} JoinAppend(a: seq<string>, b: seq<string>, sep: string)
    requires |a| >= 1 && |b| >= 1
    ensures Join(a + b, sep) == Join(a, sep) + sep + Join(b, sep)
  {
    if |a| == 1 {
      assert a + b == [a[0]] + b;
      JoinCons(a[0], b, sep);
    } else {
      var x, rest := a[0], a[1..];
      assert a == [x] + rest;
      assert a + b == [x] + (rest + b);
      JoinCons(x, rest + b, sep);
      JoinCons(x, rest, sep);
      JoinAppend(rest, b, sep);
      Regroup(x, sep, Join(rest, sep), Join(b, sep));
    }
  }

  /** Moving one separated piece across a join point. */
  lemma Regroup(x: string, sep: string, j: string, k: string)
    ensures x + sep + (j + sep + k) == (x + sep + j) + sep + k
  {
  }
}

=== FILE: poker_utils.dfy ===
/** The parsers and display tables of `PokerUtils.kt`: the case-insensitive
    `Continue` and `PokerPlay` answers, the `PokerHand` payout table, the
    colour chosen for a hand, and how cards and hands are rendered. */
module PokerUtils {

  import opened Wrappers
  import opened KotlinInt
  import opened KotlinText
  import opened Cards
  import opened AnsiColor

  /** The answer to "keep playing?" (the `Continue` enum). */
  datatype ContinueAnswer = Yes | No

  /** The answer during discarding: go on, or stop discarding. */
  datatype PokerPlay = Continue | Stop

  /** `Continue(s)`: "Y"/"YES" and "N"/"NO" in any case, otherwise `null`. */
  function ParseContinue(s: string): (r: Option<ContinueAnswer>)
    ensures r == Some(Yes) <==> EqualsIgnoreCase(s, "Y") || EqualsIgnoreCase(s, "YES")
    ensures r == Some(No) <==> EqualsIgnoreCase(s, "N") || EqualsIgnoreCase(s, "NO")
  {
    UpperMatchesWord(s, "Y");
    UpperMatchesWord(s, "YES");
    UpperMatchesWord(s, "N");
    UpperMatchesWord(s, "NO");
    var u := Upper(s);
    if u == "Y" || u == "YES" then Some(Yes)
    else if u == "N" || u == "NO" then Some(No)
    else None
  }

  /** `PokerPlay(s)`: "STOP"/"S" and "CONTINUE"/"C" in any case, otherwise
      `null`. */
  function ParsePokerPlay(s: string): (r: Option<PokerPlay>)
    ensures r == Some(Stop) <==> EqualsIgnoreCase(s, "STOP") || EqualsIgnoreCase(s, "S")
    ensures r == Some(Continue) <==> EqualsIgnoreCase(s, "CONTINUE") || EqualsIgnoreCase(s, "C")
  {
    UpperMatchesWord(s, "STOP");
    UpperMatchesWord(s, "S");
    UpperMatchesWord(s, "CONTINUE");
    UpperMatchesWord(s, "C");
    var u := Upper(s);
    if u == "STOP" || u == "S" then Some(Stop)
    else if u == "CONTINUE" || u == "C" then Some(Continue)
    else None
  }

  /** Both parsers read a string and its upper-cased form alike. */
  lemma ParsersIgnoreCase(s: string)
    ensures ParseContinue(Upper(s)) == ParseContinue(s)
    ensures ParsePokerPlay(Upper(s)) == ParsePokerPlay(s)
  {
    UpperIdempotent(s);
  }

  /** A command word is never a number, so no input is both a `PokerPlay`
      answer and an `Int`. */
  lemma CommandsAreNotNumbers(s: string)
    requires ParsePokerPlay(s).Some?
    ensures ToIntOrNull(s).None?
  {
    assert !IsDigit(s[0]) && s[0] != '-' && s[0] != '+' by {
      assert UpperChar(s[0]) == 'S' || UpperChar(s[0]) == 'C';
    }
  }

  /** The hand ranks, best first, as declared. */
  datatype PokerHand =
    | RoyalFlush | StraightFlush | FourKind | FullHouse | Flush
    | Straight | ThreeKind | TwoPair | Pair | HighCard
  {
    function StringName(): string {
      match this
      case RoyalFlush => "Royal Flush"
      case StraightFlush => "Straight Flush"
      case FourKind => "Four of a Kind"
      case FullHouse => "Full House"
      case Flush => "Flush"
      case Straight => "Straight"
      case ThreeKind => "Three of a Kind"
      case TwoPair => "Two Pair"
      case Pair => "Pair"
      case HighCard => "High Card"
    }

    function DefaultWinning(): int {
      match this
      case RoyalFlush => 250
      case StraightFlush => 50
      case FourKind => 25
      case FullHouse => 9
      case Flush => 6
      case Straight => 4
      case ThreeKind => 3
      case TwoPair => 2
      case Pair => 1
      case HighCard => 0
    }

    /** The position in the declaration (`ordinal`). */
    function Ordinal(): nat {
      match this
      case RoyalFlush => 0
      case StraightFlush => 1
      case FourKind => 2
      case FullHouse => 3
      case Flush => 4
      case Straight => 5
      case ThreeKind => 6
      case TwoPair => 7
      case Pair => 8
      case HighCard => 9
    }
  }

  /** The payout table: an earlier hand pays strictly more than a later one,
      and nothing pays less than `HighCard`, which pays nothing. */
  lemma PayoutTable(h: PokerHand, k: PokerHand)
    ensures h.Ordinal() < k.Ordinal() <==> h.DefaultWinning() > k.DefaultWinning()
    ensures h.DefaultWinning() >= HighCard.DefaultWinning() == 0
  {
  }

  /** The colours `getColorLevel` picks from (the AWT colours are kept
      abstract: only their identity matters here). */
  datatype LevelColor =
    | Gold | Silver | Bronze | Orange | RedColor | Pink | Magenta | Green | Yellow | White

  /** `getColorLevel(hand)`: one colour per rank; no hand (`null`) is white,
      like a high card. */
  function ColorLevel(hand: Option<PokerHand>): (c: LevelColor)
    ensures c == White <==> hand.None? || hand == Some(HighCard)
  {
    match hand
    case None => White
    case Some(RoyalFlush) => Gold
    case Some(StraightFlush) => Silver
    case Some(FourKind) => Bronze
    case Some(FullHouse) => Orange
    case Some(Flush) => RedColor
    case Some(Straight) => Pink
    case Some(ThreeKind) => Magenta
    case Some(TwoPair) => Green
    case Some(Pair) => Yellow
    case Some(HighCard) => White
  }

  /** Each rank has its own colour, and a missing hand looks like a high card. */
  lemma ColorLevelDistinguishesRanks(h: PokerHand, k: PokerHand)
    ensures ColorLevel(None) == ColorLevel(Some(HighCard))
    ensures ColorLevel(Some(h)) == ColorLevel(Some(k)) <==> h == k
  {
  }

  /** `Card.toSymbol()`: the face symbol followed by the suit's glyph. */
  function CardSymbol(c: Card): (s: string)
    ensures |s| == |Symbol(c)| + 1
    ensures s[..|s| - 1] == Symbol(c) && s[|s| - 1..] == c.suit.UnicodeSymbol()
  {
    SuitLabelsDistinct(c.suit, c.suit);
    Symbol(c) + c.suit.UnicodeSymbol()
  }

  /** Different cards are always rendered differently. */
  lemma CardSymbolInjective(c: Card, d: Card)
    requires CardSymbol(c) == CardSymbol(d)
    ensures c == d
  {
    var s := CardSymbol(c);
    SuitLabelsDistinct(c.suit, d.suit);
    SymbolInjective(c.value, d.value);
  }

  /** `Color.CYAN.rgb`: opaque alpha with RGB (0, 255, 255), the word
      0xFF00FFFF read as a signed `Int`. */
  const Cyan: Int32 := -0x00FF_0001

  /** One slot of a hand being edited: `[]` for a discarded slot, the card's
      symbol in cyan otherwise. */
  function SlotSymbol(compatible: bool, slot: Option<Card>): (s: string)
    ensures slot.None? ==> s == "[]"
    ensures slot.Some? ==> Painted(s, CardSymbol(slot.value), compatible, Rgb(0, 255, 255))
  {
    match slot
    case None => "[]"
    case Some(c) =>
      CyanChannels();
      ColorText(compatible, CardSymbol(c), Cyan)
  }

  /** `List<Card?>.toSymbol()`: the slots rendered in order and joined by
      ", ". */
  function HandSymbol(compatible: bool, hand: seq<Option<Card>>): (s: string)
    ensures |hand| == 0 ==> s == ""
    ensures |hand| == 1 ==> s == SlotSymbol(compatible, hand[0])
  {
    Join(Slots(compatible, hand), ", ")
  }

  function Slots(compatible: bool, hand: seq<Option<Card>>): (r: seq<string>)
    ensures |r| == |hand|
    ensures forall i :: 0 <= i < |hand| ==> r[i] == SlotSymbol(compatible, hand[i])
  {
    seq(|hand|, i requires 0 <= i < |hand| => SlotSymbol(compatible, hand[i]))
  }

  /** Rendering a hand is rendering its slots one by one: a single slot
      renders alone, and two parts of a hand render as the parts with one
      ", " between them. */
  lemma HandSymbolSplits(compatible: bool, a: seq<Option<Card>>, b: seq<Option<Card>>)
    requires |a| >= 1 && |b| >= 1
    ensures HandSymbol(compatible, a + b) ==
      HandSymbol(compatible, a) + ", " + HandSymbol(compatible, b)
    ensures HandSymbol(compatible, [a[0]]) == SlotSymbol(compatible, a[0])
  {
    var sa, sb := Slots(compatible, a), Slots(compatible, b);
    SlotsAppend(compatible, a, b);
    JoinAppend(sa, sb, ", ");
  }

  /** The slots of two parts of a hand are the slots of each part. */
  lemma SlotsAppend(compatible: bool, a: seq<Option<Card>>, b: seq<Option<Card>>)
    ensures Slots(compatible, a + b) == Slots(compatible, a) + Slots(compatible, b)
  {
  }

  /** The cyan used for cards is the RGB colour (0, 255, 255). */
  lemma CyanChannels()
    ensures ValueOf(Cyan) == Rgb(0, 255, 255)
  {
  }
}

=== FILE: wrappers.dfy ===
/** `Option` stands for a Kotlin nullable value (`T?`), `None` being `null`. */
module Wrappers {

  datatype Option<+T> = None | Some(value: T)
}
